=== FILE: README.md ===
# SSL endpoint of the Ice RPC runtime, modelled in Dafny

This project models `IceSSL.SslEndpoint`, the value type that describes an SSL
transport endpoint of the Ice middleware: a host, a port, a timeout (-1 for
none), a compression flag and the SSL context the endpoint was built with.
The model covers every way an endpoint is built or read:

- the string constructor, which parses `-h host -p port -t timeout -z`;
- `toString`, which renders the endpoint as `ssl -h … -p …`;
- `streamWrite` and the stream constructor, which write and read the wire form;
- `compareTo`, `equals` and `hashCode`;
- the derivations `timeout(int)` and `compress(boolean)`;
- the connector, acceptor and transceiver plumbing, and the constant facts of
  the kind (type 2, secure, not datagram, not unknown).

The modules follow the structure of the class:

| file | module | contents |
|---|---|---|
| `results.dfy` | `Results` | `Option` and a failure-compatible `Result` |
| `java_lang.dfy` | `JavaLang` | the Java library behaviour the class relies on: 32-bit wrap-around, `Integer.toString`, `Integer.parseInt`, `String.hashCode` over UTF-16 |
| `tokenizer.dfy` | `Tokenizer` | `String.split("[ \t\n\r]+")`, and joining words with single spaces |
| `ssl_endpoint.dfy` | `SslEndpoint` | the endpoint datatype, `hashCode`, the derivations and the plumbing |
| `endpoint_text.dfy` | `EndpointText` | the string constructor, `toString`, the grammar, and the text round trip |
| `endpoint_wire.dfy` | `EndpointWire` | `streamWrite`, the stream constructor, and the wire round trip |
| `endpoint_order.dfy` | `EndpointOrder` | `compareTo`, `equals`, the order laws, and hash codes against `equals` |

Some inputs come from outside the class and become parameters:

- **Name resolution.** `Network.getAddress` is a `Resolver` function from host
  names to optional address bytes. Any resolver may be used, but one fixed resolver answers every lookup. `compareTo`
  asserts at line 463 that two resolved addresses have the same length.
  That assertion is reached only for different host names with equal port,
  timeout and compression. So `CompareTo` and `Equals` require equal lengths
  only for such pairs (`OrderDefined`), and the order laws carry the same
  hypothesis for each pair they compare.
- **The default host.** The configured default host is the `defaultHost`
  parameter of `EndpointText.Parse`.
- **The bound port.** The port the socket layer actually binds is the
  `effectivePort` parameter of `SslEndpoint.MakeAcceptor`.

Four behaviours of the code are easy to assume otherwise. The model follows
the code:

- **Two unresolved hosts.** When neither host resolves, `compareTo` does not
  go on to any byte comparison: it falls through to `return 0`
  (`java/src/IceSSL/SslEndpoint.java:451-478`), so the endpoints compare as
  equal. See `EndpointOrder.UnresolvedHostsEqual`.
- **Empty hosts.** Nothing in the class keeps the host non-empty. A parsed
  host is always a whitespace-free token, but the default host is taken as
  given.
- **The text round trip.** Parsing what `toString` renders gives the endpoint
  back only when the timeout is at least -1, the port is not negative, and the
  host is one token that does not start with `-`. A negative number renders as
  `-5`, and the parser reads that as a missing argument. See
  `EndpointText.NegativeTimeoutNotReparsed` and
  `EndpointText.NegativePortNotReparsed`.
- **Hash codes and `equals`.** Java's `Object.hashCode` contract asks equal
  objects to have equal hash codes. This class breaks it (see "## Findings").

## Model

| member | source | states |
|---|---|---|
| JavaLang.Wrap32 | java/src/IceSSL/SslEndpoint.java:484-487 | int arithmetic keeps the value's residue modulo 2^32 in the signed 32-bit range, and leaves in-range values unchanged |
| JavaLang.WrapAbsorbs | java/src/IceSSL/SslEndpoint.java:485-487 | wrapping an intermediate hash step and then continuing the fold gives the same int as wrapping only at the end |
| JavaLang.IntToString | java/src/IceSSL/SslEndpoint.java:189-192 | an int's decimal text is non-empty, starts with '-' exactly for negative values, is otherwise all digits, and has no leading zero except for 0 itself |
| JavaLang.ParseInt | java/src/IceSSL/SslEndpoint.java:89 | parseInt accepts exactly an optional '-' followed by decimal digits whose value fits in an int (leading zeros and "-0" included); the value is that of the digits, negated after '-' |
| JavaLang.PlusSignRejected | java/src/IceSSL/SslEndpoint.java:89 | a leading '+' is rejected, as in the JDKs of the code's time |
| JavaLang.ParseIntOfToString | java/src/IceSSL/SslEndpoint.java:89 | parseInt reads back every int that the rendering writes with Integer.toString |
| JavaLang.Utf16 | java/src/IceSSL/SslEndpoint.java:484 | String.hashCode runs over UTF-16 code units, each below 0x10000 |
| JavaLang.StringHash | java/src/IceSSL/SslEndpoint.java:484 | `_host.hashCode()`: the empty string hashes to 0 |
| JavaLang.StringHashStep | java/src/IceSSL/SslEndpoint.java:484 | each further character continues the hash with h := 31·h + unit in int arithmetic: one step in the Basic Multilingual Plane, a high- then a low-surrogate step otherwise |
| Tokenizer.Split | java/src/IceSSL/SslEndpoint.java:38 | the whitespace split yields the text's maximal non-blank words in order, possibly preceded by one empty token, so only the first token can be empty |
| Tokenizer.SplitOfJoin | java/src/IceSSL/SslEndpoint.java:38 | splitting words joined by single spaces gives back exactly those words |
| SslEndpoint.HashCode | java/src/IceSSL/SslEndpoint.java:481-488 | calcHashValue's step-by-step fold equals 125·hash(host) + 25·port + 5·timeout + compress, reduced once to a signed 32-bit int |
| SslEndpoint.WithTimeout | java/src/IceSSL/SslEndpoint.java:225-236 | the result has the requested timeout and differs from the endpoint in nothing else; it is the endpoint itself exactly when the timeout is unchanged |
| SslEndpoint.WithCompress | java/src/IceSSL/SslEndpoint.java:253-264 | the result has the requested flag and differs in nothing else; it is the endpoint itself exactly when the flag is unchanged |
| SslEndpoint.WithTimeoutUndo | java/src/IceSSL/SslEndpoint.java:225-236 | deriving back to the original timeout restores the original endpoint |
| SslEndpoint.WithCompressUndo | java/src/IceSSL/SslEndpoint.java:253-264 | deriving back to the original compression flag restores the original endpoint |
| SslEndpoint.MakeAcceptor | java/src/IceSSL/SslEndpoint.java:334-340 | the acceptor listens on the endpoint's host and port; the effective endpoint carries the bound port and differs from the endpoint only there |
| SslEndpoint.MakeConnector | java/src/IceSSL/SslEndpoint.java:321-325 | the connector targets exactly the host, port and context an acceptor of the same endpoint listens on |
| SslEndpoint.ClientTransceiver | java/src/IceSSL/SslEndpoint.java:297-301 | no client transceiver; connections go through the connector |
| SslEndpoint.ServerTransceiver | java/src/IceSSL/SslEndpoint.java:310-315 | no server transceiver, and the effective endpoint is the endpoint itself |
| SslEndpoint.EquivalentTransceiver | java/src/IceSSL/SslEndpoint.java:346-350 | never equivalent to a transceiver |
| SslEndpoint.EquivalentAcceptor | java/src/IceSSL/SslEndpoint.java:352-365 | only an SslAcceptor can be equivalent (a failed cast gives false); for one, its own test on the endpoint's host and port decides |
| SslEndpoint.KindFacts | java/src/IceSSL/SslEndpoint.java:204-291 | type 2, secure, not datagram, not unknown |
| EndpointText.ParseOptions | java/src/IceSSL/SslEndpoint.java:40-144 | the loop only ever sets fields: a host once set stays set, and compression once on stays on |
| EndpointText.BlankTokensChangeNothing | java/src/IceSSL/SslEndpoint.java:43-47 | blank tokens are skipped: a list with nothing but blanks left leaves the fields unchanged |
| EndpointText.Parse | java/src/IceSSL/SslEndpoint.java:29-152 | a failed parse reports "ssl " followed by the input text; a successful one keeps the given SSL context |
| EndpointText.ParseOptionsIff | java/src/IceSSL/SslEndpoint.java:40-144 | the option loop succeeds from token i exactly when the tokens from i follow the option grammar |
| EndpointText.ArgumentOptionIff | java/src/IceSSL/SslEndpoint.java:57-122 | when -h, -p or -t has an acceptable argument, the loop succeeds exactly when the grammar holds from that option on |
| EndpointText.ParseStep | java/src/IceSSL/SslEndpoint.java:43-142 | in a successful parse, the token at option position i is empty or one of -h, -p, -t, -z; an option there consumed its argument (a parsed int for -p and -t), and the rest of the list parsed from the next position |
| EndpointText.ParseOptionsCompress | java/src/IceSSL/SslEndpoint.java:124-135 | compression ends up on exactly when it was on before or some remaining token is -z |
| EndpointText.ParseOptionsHost | java/src/IceSSL/SslEndpoint.java:65-76 | the host is the argument of the last -h, and is unchanged when there is no -h |
| EndpointText.ParseOptionsPort | java/src/IceSSL/SslEndpoint.java:78-99 | the port is the parsed argument of the last -p, and is unchanged when there is no -p |
| EndpointText.ParseOptionsTimeout | java/src/IceSSL/SslEndpoint.java:101-122 | the timeout is the parsed argument of the last -t, and is unchanged when there is no -t |
| EndpointText.ParseSucceedsExactly | java/src/IceSSL/SslEndpoint.java:38-144 | the string constructor succeeds exactly on texts whose tokens follow the grammar |
| EndpointText.ParseSuccessFields | java/src/IceSSL/SslEndpoint.java:33-149 | each parsed field comes from the last option naming it, or is the default: defaultHost, port 0, timeout -1, compression off |
| EndpointText.UnknownOptionRejected | java/src/IceSSL/SslEndpoint.java:50-142 | a token starting with '-' that is not -h, -p, -t or -z makes the parse fail with the "ssl "-prefixed text |
| EndpointText.StrayArgumentRejected | java/src/IceSSL/SslEndpoint.java:49-55 | an argument token not claimed by a preceding -h, -p or -t makes the parse fail |
| EndpointText.CompressArgumentRejected | java/src/IceSSL/SslEndpoint.java:124-131 | -z followed by an argument makes the parse fail |
| EndpointText.MissingArgumentRejected | java/src/IceSSL/SslEndpoint.java:57-108 | -h, -p or -t without a following argument token makes the parse fail |
| EndpointText.BadNumberRejected | java/src/IceSSL/SslEndpoint.java:87-119 | -p or -t with an argument that parseInt rejects makes the parse fail |
| EndpointText.ToString | java/src/IceSSL/SslEndpoint.java:187-199 | the text starts with "ssl -h ", and ends in " -z" exactly when compression is on (otherwise in the digits of the port or timeout) |
| EndpointText.RenderIsJoin | java/src/IceSSL/SslEndpoint.java:187-199 | toString is "ssl " followed by the rendered option tokens joined by single spaces |
| EndpointText.SplitOfRendering | java/src/IceSSL/SslEndpoint.java:187-199 | after the "ssl " keyword, splitting a rendering with a one-token host gives back exactly the rendered tokens |
| EndpointText.RenderedTokensParse | java/src/IceSSL/SslEndpoint.java:40-144 | the option loop reads the rendered tokens back into the endpoint's host, port, timeout and compression |
| EndpointText.OptionalTokensParse | java/src/IceSSL/SslEndpoint.java:101-135 | the optional "-t n" and "-z" tokens are read back into the timeout and the compression flag |
| EndpointText.RenderParseRoundTrip | java/src/IceSSL/SslEndpoint.java:187-199 | toString starts with "ssl ", and parsing the rest gives the endpoint back (with the parsing side's context) for every renderable endpoint |
| EndpointText.NegativeTimeoutNotReparsed | java/src/IceSSL/SslEndpoint.java:190-193 | for a one-token host, a timeout below -1 renders as text that the parser rejects |
| EndpointText.NegativePortNotReparsed | java/src/IceSSL/SslEndpoint.java:189 | for a one-token host, a negative port renders as text that the parser rejects |
| EndpointText.ParseOptionsRenderable | java/src/IceSSL/SslEndpoint.java:57-122 | every field the loop sets is renderable: a one-token host not starting with '-', a non-negative port, a timeout of at least -1 |
| EndpointText.ParseRenderParse | java/src/IceSSL/SslEndpoint.java:29-199 | whatever a parse yields renders to text that parses back to the same endpoint, whenever the default host is itself renderable |
| EndpointText.EndToEndExample | java/src/IceSSL/SslEndpoint.java:29-199 | "-h example.com -p 4433 -t 3000 -z" parses to that endpoint, which renders as "ssl -h example.com -p 4433 -t 3000 -z" |
| EndpointText.FailureExamplesOneToken | java/src/IceSSL/SslEndpoint.java:49-72 | "-x" and "-h" do not parse |
| EndpointText.FailureExampleBadNumber | java/src/IceSSL/SslEndpoint.java:87-96 | "-p abc" does not parse |
| EndpointText.FailureExampleCompressArgument | java/src/IceSSL/SslEndpoint.java:124-131 | "-z foo" does not parse |
| EndpointWire.StreamWrite | java/src/IceSSL/SslEndpoint.java:172-181 | seven values: the type code 2, then an encapsulation that opens right after it, holds host, port, timeout and compression in that order and no marker, and closes at the last value |
| EndpointWire.StreamRead | java/src/IceSSL/SslEndpoint.java:155-166 | a successful read consumes exactly what streamWrite emits after the type code for the endpoint read, and uses the reader's SSL context |
| EndpointWire.WireRoundTrip | java/src/IceSSL/SslEndpoint.java:155-181 | streamWrite starts with type 2, and reading the rest back yields the same host, port, timeout and compression, leaving the stream that follows untouched |
| EndpointWire.TruncatedStreamRejected | java/src/IceSSL/SslEndpoint.java:159-164 | a stream cut off before the encapsulation is complete does not decode |
| EndpointOrder.CompareAddresses | java/src/IceSSL/SslEndpoint.java:459-475 | the byte loop returns -1, 0 or 1; 0 exactly when the remaining bytes agree; -1 exactly when at the first differing position the left signed byte is smaller, 1 exactly when it is larger |
| EndpointOrder.CompareLookups | java/src/IceSSL/SslEndpoint.java:451-478 | the resolution tie-break is 0 exactly when both lookups agree; -1 exactly when only the other host resolves or the first differing signed byte is smaller; 1 symmetrically |
| EndpointOrder.SignedByteOrder | java/src/IceSSL/SslEndpoint.java:464-473 | bytes compare signed: -56 (0xC8) sorts below 10 |
| EndpointOrder.CompareTo | java/src/IceSSL/SslEndpoint.java:382-479 | the result is -1, 0 or 1; 1 against another class; 0 only between equal port, timeout and compression; always 0 when the host name is also equal; equal address lengths are required only where line 463 asserts them |
| EndpointOrder.Equals | java/src/IceSSL/SslEndpoint.java:376-380 | equals holds exactly for an SSL endpoint with the same port, timeout and compression whose host resolves to the same address, or, like this one's, to none |
| EndpointOrder.SettingsDecideFirst | java/src/IceSSL/SslEndpoint.java:401-426 | endpoints with different settings are never equal and are ordered by port, then timeout, then compression (off first), whatever their hosts resolve to |
| EndpointOrder.CompareToIsKeyOrder | java/src/IceSSL/SslEndpoint.java:396-479 | compareTo equals the lexicographic order on (port, timeout, compression, resolved address), so its shortcuts never change the outcome |
| EndpointOrder.CompareAddressesAntisymmetric | java/src/IceSSL/SslEndpoint.java:464-474 | swapping the addresses negates the byte comparison |
| EndpointOrder.CompareAddressesTransitive | java/src/IceSSL/SslEndpoint.java:464-474 | the byte comparison is transitive |
| EndpointOrder.UnresolvedSortsFirst | java/src/IceSSL/SslEndpoint.java:451-458 | with equal settings, an endpoint whose host does not resolve sorts before one whose host does, in both directions |
| EndpointOrder.UnresolvedHostsEqual | java/src/IceSSL/SslEndpoint.java:451-478 | with equal settings, two endpoints whose hosts both fail to resolve are equal |
| EndpointOrder.CompareAntisymmetric | java/src/IceSSL/SslEndpoint.java:382-479 | compareTo(a, b) is the negation of compareTo(b, a) |
| EndpointOrder.CompareTransitive | java/src/IceSSL/SslEndpoint.java:382-479 | a ≤ b ≤ c gives a ≤ c, and an endpoint equal to another compares like it against any third |
| EndpointOrder.EqualsIsEquivalence | java/src/IceSSL/SslEndpoint.java:376-380 | equals is reflexive, symmetric and transitive, and false against another class |
| EndpointOrder.WithTimeoutOrder | java/src/IceSSL/SslEndpoint.java:410-417 | a derived timeout moves the endpoint in the order exactly as the timeouts compare |
| EndpointOrder.HashCodeOnSameFields | java/src/IceSSL/SslEndpoint.java:367-371 | endpoints with the same host name and settings are equal and have the same hash code |
| EndpointOrder.EqualsWithDifferentHashCodes | java/src/IceSSL/SslEndpoint.java:481-488 | as written: endpoints on unresolvable hosts "a" and "b" are equal but hash to 12120 and 12245 |
| EndpointOrder.ConsistentHashCode | java/src/IceSSL/SslEndpoint.java:481-488 | corrected hash: 25·port + 5·timeout + compress modulo 2^32; the as-written hash is this plus the host's term 125·hash(host) |
| EndpointOrder.ConsistentHashCodeAgreesWithEquals | java/src/IceSSL/SslEndpoint.java:376-380 | corrected: equal endpoints always have equal hash codes when the hash leaves out the host name |

## Left out

- Name resolution, the SSL context and the socket layer are not modelled.
  - `Network.getAddress` is a parameter.
  - The SSL context is an opaque handle.
  - The port an acceptor binds is an input.
  - SslConnector and SslAcceptor (including `SslAcceptor.equivalent`) are not part of this model.
- The byte encoding of BasicStream is not modelled. Its length prefixes and byte layout are not shown in the class. The stream is modelled as a sequence of typed values with encapsulation start and end markers. Reading checks that the encapsulation ends after the compression flag.
- `_instance` is dropped. The class also passes it on to SslConnector, SslAcceptor and every endpoint it derives. Within this model it is used only for the default host, which is a parameter here.
- Each `compareTo` call asks `Network.getAddress` afresh, so in Java two calls may see different answers. The model gives every lookup one fixed view of name resolution (one pure `Resolver`), and the order laws hold for that view.
- The `_hashCode` cache is modelled as a pure function of the fields. The cache cannot be observed.
- `compareTo(null)` and a null default host are not modelled. Java throws a NullPointerException for both, and Dafny values are never null.
- JavaLang.ParseInt: accepts only ASCII digits, while Java's parseInt also accepts other Unicode decimal digits. It follows the JDKs of the code's time (1.4 and 5), which reject a leading '+'. Java 7 and later accept one, so there "-p +5" would parse.
- JavaLang.Utf16: assumes characters are Unicode scalar values, so lone surrogates are not modelled.
- EndpointOrder.CompareTo: requires equal address lengths when both hosts resolve, for different host names with equal settings. The source asserts this at line 463 and does not handle a mismatch.
- EndpointText.RenderParseRoundTrip: holds only for renderable endpoints. These have a one-token host that does not start with '-', a non-negative port, and a timeout of at least -1. The other cases fail, as NegativeTimeoutNotReparsed and NegativePortNotReparsed show.
- Ordering between different endpoint kinds is not part of this model, and neither are the TCP and UDP endpoints or the C++ and Java-embedded variants.

## Findings

| source | as written | input that shows it | evidently intended | confidence | as-written member | corrected member |
|---|---|---|---|---|---|---|
| java/src/IceSSL/SslEndpoint.java:481-488 | the hash code folds `_host.hashCode()`, but `equals` (compareTo == 0) treats different host names as equal when neither resolves or both resolve to the same address | hosts "a" and "b", both unresolvable, port 0, timeout -1, no compression: equal, with hash codes 12120 and 12245 | equal endpoints have equal hash codes; a hash over port, timeout and compression alone meets that | high (not executed) | EndpointOrder.EqualsWithDifferentHashCodes | EndpointOrder.ConsistentHashCode |

`SslEndpoint.HashCode` keeps the code as written, because it is what the
source computes. `EndpointOrder.ConsistentHashCode` is the corrected hash,
and `EndpointOrder.ConsistentHashCodeAgreesWithEquals` proves it consistent
with `equals`.

=== FILE: endpoint_order.dfy ===
/** compareTo, equals and their laws. Ties on port, timeout and
    compression between different host names are broken by resolving both
    hosts; the resolver is a parameter, so the ordering is relative to one
    fixed view of name resolution. */
module EndpointOrder {
  import opened Results
  import opened JavaLang
  import opened SslEndpoint

  /** Network.getAddress reduced to what compareTo uses: the address bytes
      of a host, or None where the lookup fails (the DNSException it
      swallows). */
  type Resolver = string -> Option<seq<int8>>

  /** The argument of compareTo and equals: an SSL endpoint, or an object
      of any other class. */
  datatype Object = SslObject(endpoint: Endpoint) | OtherObject

  /** compareTo asserts that two resolved addresses have the same length. */
  predicate LengthsAgree(resolve: Resolver, h1: string, h2: string) {
    resolve(h1).Some? && resolve(h2).Some? ==> |resolve(h1).value| == |resolve(h2).value|
  }

  /** What compareTo needs of the resolver for a pair of endpoints: the
      length assertion only matters when the comparison reaches the
      address bytes, that is, for different host names with the same
      port, timeout and compression. */
  predicate OrderDefined(resolve: Resolver, a: Endpoint, b: Endpoint) {
    SameSettings(a, b) && a.host != b.host ==> LengthsAgree(resolve, a.host, b.host)
  }

  /** j is the first position from i on where l and r differ. */
  predicate FirstDifference(l: seq<int8>, r: seq<int8>, i: nat, j: nat)
    requires |l| == |r|
  {
    i <= j < |l| && l[j] != r[j] && forall m | i <= m < j :: l[m] == r[m]
  }

  /** The byte loop of compareTo from position i: the first pair of
      differing signed bytes decides (-1 when the left byte is the smaller
      one, 1 when it is the larger), and the result is 0 exactly when the
      remaining bytes agree. */
  function CompareAddresses(l: seq<int8>, r: seq<int8>, i: nat): (c: int)
    requires |l| == |r| && i <= |l|
    ensures c == -1 || c == 0 || c == 1
    ensures c == 0 <==> l[i..] == r[i..]
    ensures c == -1 <==> exists j: nat :: FirstDifference(l, r, i, j) && l[j] < r[j]
    ensures c == 1 <==> exists j: nat :: FirstDifference(l, r, i, j) && r[j] < l[j]
    decreases |l| - i
  {
    if i == |l| then 0
    else if l[i] < r[i] then
      assert FirstDifference(l, r, i, i);
      -1
    else if r[i] < l[i] then
      assert FirstDifference(l, r, i, i);
      assert forall j: nat :: FirstDifference(l, r, i, j) ==> j == i;
      1
    else
      assert l[i..] == [l[i]] + l[i + 1..] && r[i..] == [r[i]] + r[i + 1..];
      FirstDifferenceStep(l, r, i);
      CompareAddresses(l, r, i + 1)
  }

  /** Where l and r agree at i, the first difference from i is the first
      difference from i + 1. */
  lemma FirstDifferenceStep(l: seq<int8>, r: seq<int8>, i: nat)
    requires |l| == |r| && i < |l| && l[i] == r[i]
    ensures forall j: nat :: FirstDifference(l, r, i, j) <==> FirstDifference(l, r, i + 1, j)
  {
  }

  /** The resolution tie-break: a host that does not resolve sorts before
      one that does; two that resolve compare by address bytes; two that do
      not are equal. */
  function CompareLookups(l: Option<seq<int8>>, r: Option<seq<int8>>): (c: int)
    requires l.Some? && r.Some? ==> |l.value| == |r.value|
    ensures c == 0 <==> l == r
    ensures c == -1 <==> (l.None? && r.Some?) || (l.Some? && r.Some? && exists j: nat :: FirstDifference(l.value, r.value, 0, j) && l.value[j] < r.value[j])
    ensures c == 1 <==> (l.Some? && r.None?) || (l.Some? && r.Some? && exists j: nat :: FirstDifference(l.value, r.value, 0, j) && r.value[j] < l.value[j])
  {
    if l.None? && r.Some? then -1
    else if r.None? && l.Some? then 1
    else if l.Some? && r.Some? then CompareAddresses(l.value, r.value, 0)
    else 0
  }

  /** The endpoints agree on port, timeout and compression. */
  predicate SameSettings(a: Endpoint, b: Endpoint) {
    a.port == b.port && a.timeout == b.timeout && a.compress == b.compress
  }

  /** compareTo: an object of another class compares as smaller (1);
      otherwise port, then timeout, then compression (false first), and on
      a tie, different host names are resolved and compared. The result is
      0 only between endpoints with the same settings, and always 0 between
      endpoints with the same settings and the same host name. */
  function CompareTo(resolve: Resolver, a: Endpoint, obj: Object): (c: int)
    requires obj.SslObject? ==> OrderDefined(resolve, a, obj.endpoint)
    ensures c == -1 || c == 0 || c == 1
    ensures obj.OtherObject? ==> c == 1
    ensures obj.SslObject? && c == 0 ==> SameSettings(a, obj.endpoint)
    ensures obj.SslObject? && SameSettings(a, obj.endpoint) && a.host == obj.endpoint.host ==> c == 0
  {
    match obj
    case OtherObject => 1
    case SslObject(b) =>
      if a == b then 0
      else if a.port < b.port then -1
      else if b.port < a.port then 1
      else if a.timeout < b.timeout then -1
      else if b.timeout < a.timeout then 1
      else if !a.compress && b.compress then -1
      else if !b.compress && a.compress then 1
      else if a.host != b.host then CompareLookups(resolve(a.host), resolve(b.host))
      else 0
  }

  /** equals: compareTo returns 0. That is the case exactly for an SSL
      endpoint with the same port, timeout and compression whose host looks
      up to the same result: the same address bytes, or no address. */
  function Equals(resolve: Resolver, a: Endpoint, obj: Object): (r: bool)
    requires obj.SslObject? ==> OrderDefined(resolve, a, obj.endpoint)
    ensures r <==> obj.SslObject? && SameSettings(a, obj.endpoint)
                   && resolve(a.host) == resolve(obj.endpoint.host)
  {
    CompareTo(resolve, a, obj) == 0
  }

  // ---------------------------------------------------------------------
  // The ordering as a lexicographic order on keys

  function CompareInts(x: int, y: int): int {
    if x < y then -1 else if y < x then 1 else 0
  }

  function CompareBools(x: bool, y: bool): int {
    if !x && y then -1 else if x && !y then 1 else 0
  }

  /** The reference ordering: lexicographic on (port, timeout, compress,
      resolved address), with an unresolved host below every resolved one.
      It never looks at host names themselves. */
  function KeyOrder(resolve: Resolver, a: Endpoint, b: Endpoint): int
    requires OrderDefined(resolve, a, b)
  {
    if a.port != b.port then CompareInts(a.port, b.port)
    else if a.timeout != b.timeout then CompareInts(a.timeout, b.timeout)
    else if a.compress != b.compress then CompareBools(a.compress, b.compress)
    else CompareLookups(resolve(a.host), resolve(b.host))
  }

  /** compareTo is the key order: its shortcuts (the same object, the same
      host name) never change the outcome. */
  lemma CompareToIsKeyOrder(resolve: Resolver, a: Endpoint, b: Endpoint)
    requires OrderDefined(resolve, a, b)
    ensures CompareTo(resolve, a, SslObject(b)) == KeyOrder(resolve, a, b)
  {
    if a.host == b.host {
      match resolve(a.host)
      case None =>
      case Some(addr) => assert CompareAddresses(addr, addr, 0) == 0;
    }
  }

  /** Swapping the arguments of the byte loop negates its result. */
  lemma {:induction false} CompareAddressesAntisymmetric(l: seq<int8>, r: seq<int8>, i: nat)
    requires |l| == |r| && i <= |l|
    ensures CompareAddresses(l, r, i) == -CompareAddresses(r, l, i)
    decreases |l| - i
  {
    if i < |l| && l[i] == r[i] {
      CompareAddressesAntisymmetric(l, r, i + 1);
    }
  }

  /** The byte loop is transitive. */
  lemma {:induction false} CompareAddressesTransitive(l: seq<int8>, m: seq<int8>, r: seq<int8>, i: nat)
    requires |l| == |m| == |r| && i <= |l|
    requires CompareAddresses(l, m, i) <= 0 && CompareAddresses(m, r, i) <= 0
    ensures CompareAddresses(l, r, i) <= 0
    decreases |l| - i
  {
    if i < |l| && l[i] == m[i] && m[i] == r[i] {
      CompareAddressesTransitive(l, m, r, i + 1);
    }
  }

  /** Bytes compare as Java's signed bytes: 0xC8 (-56) sorts below 10. */
  lemma SignedByteOrder()
    ensures CompareAddresses([-56], [10], 0) == -1
  {
    assert FirstDifference([-56], [10], 0, 0);
  }

  // ---------------------------------------------------------------------
  // Laws

  /** Endpoints whose settings differ are ordered by those settings alone,
      whatever their hosts resolve to, addresses of different lengths
      included. */
  lemma SettingsDecideFirst(resolve: Resolver, a: Endpoint, b: Endpoint)
    requires !SameSettings(a, b)
    ensures CompareTo(resolve, a, SslObject(b)) != 0
    ensures CompareTo(resolve, a, SslObject(b)) == -1 <==>
              a.port < b.port
              || (a.port == b.port && a.timeout < b.timeout)
              || (a.port == b.port && a.timeout == b.timeout && !a.compress && b.compress)
  {
  }

  /** The resolution tie-break: with equal settings, an endpoint whose host
      does not resolve sorts before one whose host does. */
  lemma UnresolvedSortsFirst(resolve: Resolver, a: Endpoint, b: Endpoint)
    requires SameSettings(a, b)
    requires resolve(a.host).None? && resolve(b.host).Some?
    ensures CompareTo(resolve, a, SslObject(b)) == -1
    ensures CompareTo(resolve, b, SslObject(a)) == 1
  {
  }

  /** With equal settings, endpoints whose hosts both fail to resolve are
      equal, whatever their host names. */
  lemma UnresolvedHostsEqual(resolve: Resolver, a: Endpoint, b: Endpoint)
    requires SameSettings(a, b)
    requires resolve(a.host).None? && resolve(b.host).None?
    ensures Equals(resolve, a, SslObject(b))
  {
  }

  /** Antisymmetry: comparing the other way round gives the opposite sign. */
  lemma CompareAntisymmetric(resolve: Resolver, a: Endpoint, b: Endpoint)
    requires OrderDefined(resolve, a, b)
    ensures CompareTo(resolve, a, SslObject(b)) == -CompareTo(resolve, b, SslObject(a))
  {
    CompareToIsKeyOrder(resolve, a, b);
    CompareToIsKeyOrder(resolve, b, a);
    var l, r := resolve(a.host), resolve(b.host);
    if SameSettings(a, b) && l.Some? && r.Some? {
      CompareAddressesAntisymmetric(l.value, r.value, 0);
    }
  }

  /** Transitivity, in both of the forms Comparable asks for: a <= b <= c
      gives a <= c, and an endpoint equal to another compares like it
      against any third. */
  lemma CompareTransitive(resolve: Resolver, a: Endpoint, b: Endpoint, c: Endpoint)
    requires OrderDefined(resolve, a, b)
    requires OrderDefined(resolve, b, c)
    requires OrderDefined(resolve, a, c)
    ensures (CompareTo(resolve, a, SslObject(b)) <= 0 && CompareTo(resolve, b, SslObject(c)) <= 0) ==>
              CompareTo(resolve, a, SslObject(c)) <= 0
    ensures CompareTo(resolve, a, SslObject(b)) == 0 ==>
              CompareTo(resolve, a, SslObject(c)) == CompareTo(resolve, b, SslObject(c))
  {
    CompareToIsKeyOrder(resolve, a, b);
    CompareToIsKeyOrder(resolve, b, c);
    CompareToIsKeyOrder(resolve, a, c);
    var la, lb, lc := resolve(a.host), resolve(b.host), resolve(c.host);
    if SameSettings(a, b) && SameSettings(b, c) && la.Some? && lb.Some? && lc.Some? {
      if CompareAddresses(la.value, lb.value, 0) <= 0 && CompareAddresses(lb.value, lc.value, 0) <= 0 {
        CompareAddressesTransitive(la.value, lb.value, lc.value, 0);
      }
      assert la.value[0..] == la.value && lb.value[0..] == lb.value;
    }
  }

  /** equals is an equivalence on SSL endpoints, and never holds against
      an object of another class. */
  lemma EqualsIsEquivalence(resolve: Resolver, a: Endpoint, b: Endpoint, c: Endpoint)
    requires OrderDefined(resolve, a, b)
    requires OrderDefined(resolve, b, c)
    requires OrderDefined(resolve, a, c)
    ensures Equals(resolve, a, SslObject(a))
    ensures Equals(resolve, a, SslObject(b)) ==> Equals(resolve, b, SslObject(a))
    ensures Equals(resolve, a, SslObject(b)) && Equals(resolve, b, SslObject(c)) ==> Equals(resolve, a, SslObject(c))
    ensures !Equals(resolve, a, OtherObject)
  {
    CompareAntisymmetric(resolve, a, b);
    CompareTransitive(resolve, a, b, c);
  }

  /** A derived timeout moves the endpoint in the order exactly as the
      timeouts compare, since port comes first and the host is kept. */
  lemma WithTimeoutOrder(resolve: Resolver, e: Endpoint, t: int32)
    ensures CompareTo(resolve, WithTimeout(e, t), SslObject(e)) == CompareInts(t, e.timeout)
  {
  }

  // ---------------------------------------------------------------------
  // Hash codes against equals

  /** The half of the hash contract that holds: endpoints with the same
      host name and settings have the same hash code (and are equal). */
  lemma HashCodeOnSameFields(resolve: Resolver, a: Endpoint, b: Endpoint)
    requires a.host == b.host && SameSettings(a, b)
    ensures Equals(resolve, a, SslObject(b)) && HashCode(a) == HashCode(b)
  {
  }

  /** The hash code as written breaks the hash contract: hosts "a" and "b"
      that both fail to resolve make equal endpoints whose hash codes
      differ (12120 against 12245), because hashCode hashes the host name
      while equals compares resolved addresses. */
  lemma EqualsWithDifferentHashCodes(resolve: Resolver, ctx: SslContext)
    requires resolve("a").None? && resolve("b").None?
    ensures Equals(resolve, Endpoint(ctx, "a", 0, -1, false), SslObject(Endpoint(ctx, "b", 0, -1, false)))
    ensures HashCode(Endpoint(ctx, "a", 0, -1, false)) == 12120
    ensures HashCode(Endpoint(ctx, "b", 0, -1, false)) == 12245
  {
    assert StringHash("a") == 97;
    assert StringHash("b") == 98;
  }

  /** A hash code consistent with equals: the same fold over port, timeout
      and compression, leaving out the host name, which equals does not
      compare literally. The as-written hash code is this one plus the
      host's term. */
  function ConsistentHashCode(e: Endpoint): (h: int32)
    ensures h == Wrap32(25 * e.port + 5 * e.timeout + CompressBit(e.compress))
    ensures HashCode(e) == Wrap32(125 * StringHash(e.host) + h)
  {
    var h1 := Wrap32(e.port);
    var h2 := Wrap32(5 * h1 + e.timeout);
    WrapAbsorbs(5, 5 * e.port + e.timeout, CompressBit(e.compress));
    WrapAbsorbs(1, 25 * e.port + 5 * e.timeout + CompressBit(e.compress), 125 * StringHash(e.host));
    Wrap32(5 * h2 + CompressBit(e.compress))
  }

  /** Equal endpoints have equal consistent hash codes, whatever the
      resolver says. */
  lemma ConsistentHashCodeAgreesWithEquals(resolve: Resolver, a: Endpoint, b: Endpoint)
    requires OrderDefined(resolve, a, b)
    requires Equals(resolve, a, SslObject(b))
    ensures ConsistentHashCode(a) == ConsistentHashCode(b)
  {
  }
}

=== FILE: endpoint_text.dfy ===
/** The textual form of an SSL endpoint: the `-h host -p port -t timeout -z`
    option grammar the string constructor parses, and toString, which
    renders it back. */
module EndpointText {
  import opened Results
  import opened JavaLang
  import opened Tokenizer
  import opened SslEndpoint

  /** EndpointParseException; str is the offending text with the "ssl"
      keyword put back in front. */
  datatype EndpointParseException = EndpointParseException(str: string)

  /** The fields the parse loop has set so far; host stays None until a -h
      option is seen. */
  datatype Fields = Fields(host: Option<string>, port: int32, timeout: int32, compress: bool)

  /** Port 0, no timeout, no compression, no host yet. */
  const Defaults: Fields := Fields(None, 0, -1, false)

  /** A token the loop takes as an option argument: non-empty, and not
      starting with '-'. */
  predicate IsArgument(t: string) {
    |t| > 0 && t[0] != '-'
  }

  predicate LooksLikeOption(t: string) {
    |t| > 0 && t[0] == '-'
  }

  predicate IsKnownOption(t: string) {
    t == "-h" || t == "-p" || t == "-t" || t == "-z"
  }

  predicate TakesArgument(t: string) {
    t == "-h" || t == "-p" || t == "-t"
  }

  predicate TakesNumber(t: string) {
    t == "-p" || t == "-t"
  }

  /** Token lists as Split returns them: every token but the first is a
      word (so only the first may be empty). */
  predicate SplitShaped(arr: seq<string>) {
    forall k :: 1 <= k < |arr| ==> IsWord(arr[k])
  }

  /** The parse loop from token i on: empty tokens are skipped; every other
      token must be '-' and one letter; a following token that does not
      start with '-' is taken as its argument; -h, -p and -t need an
      argument (-p and -t a decimal int), -z must have none. None stands
      for the EndpointParseException every error path throws. The loop only
      ever sets fields: a host once set stays set, and compression once on
      stays on. */
  function ParseOptions(arr: seq<string>, i: nat, f: Fields): (r: Option<Fields>)
    requires SplitShaped(arr)
    ensures r.Some? && f.compress ==> r.value.compress
    ensures r.Some? && f.host.Some? ==> r.value.host.Some?
    decreases |arr| - i
  {
    if i >= |arr| then Some(f)
    else if arr[i] == "" then ParseOptions(arr, i + 1, f)
    else
      var option := arr[i];
      if |option| != 2 || option[0] != '-' then None
      else
        var hasArgument := i + 1 < |arr| && arr[i + 1][0] != '-';
        var next := if hasArgument then i + 2 else i + 1;
        if option[1] == 'h' then
          if !hasArgument then None
          else ParseOptions(arr, next, f.(host := Some(arr[i + 1])))
        else if option[1] == 'p' then
          if !hasArgument then None
          else match ParseInt(arr[i + 1])
            case None => None
            case Some(v) => ParseOptions(arr, next, f.(port := v))
        else if option[1] == 't' then
          if !hasArgument then None
          else match ParseInt(arr[i + 1])
            case None => None
            case Some(v) => ParseOptions(arr, next, f.(timeout := v))
        else if option[1] == 'z' then
          if hasArgument then None
          else ParseOptions(arr, next, f.(compress := true))
        else None
  }

  /** The string constructor SslEndpoint(instance, ctx, str): the options
      of str over the defaults, with defaultHost (the configured default
      host) when no -h is given. */
  function Parse(ctx: SslContext, str: string, defaultHost: string): (r: Result<Endpoint, EndpointParseException>)
    ensures r.Failure? ==> r.error.str == "ssl " + str
    ensures r.Success? ==> r.value.ctx == ctx
  {
    match ParseOptions(Split(str), 0, Defaults)
    case None => Failure(EndpointParseException("ssl " + str))
    case Some(f) =>
      Success(Endpoint(ctx, if f.host.Some? then f.host.value else defaultHost, f.port, f.timeout, f.compress))
  }

  // ---------------------------------------------------------------------
  // The grammar, stated token by token

  /** What token k may be when the parse starts at option position i:
      anything starting with '-' is one of the four options; -h, -p and -t
      are followed by an argument, which for -p and -t is a decimal int;
      and an argument directly follows an option that takes one (so, in
      particular, never follows -z). */
  predicate TokenAllowed(arr: seq<string>, i: nat, k: nat)
    requires k < |arr|
  {
    && (LooksLikeOption(arr[k]) ==> IsKnownOption(arr[k]))
    && (TakesArgument(arr[k]) ==> k + 1 < |arr| && IsArgument(arr[k + 1]))
    && (TakesNumber(arr[k]) ==> k + 1 < |arr| && ParseInt(arr[k + 1]).Some?)
    && (IsArgument(arr[k]) ==> i < k && TakesArgument(arr[k - 1]))
  }

  predicate WellFormedFrom(arr: seq<string>, i: nat) {
    forall k | i <= k < |arr| :: TokenAllowed(arr, i, k)
  }

  /** k is the last position of token t in arr. */
  predicate LastOccurrence(arr: seq<string>, t: string, k: int) {
    0 <= k < |arr| && arr[k] == t && forall m | k < m < |arr| :: arr[m] != t
  }

  /** Moving the start from i to j loses no constraint, provided token j-1
      does not claim token j as its argument. */
  lemma WellFormedShift(arr: seq<string>, i: nat, j: nat)
    requires i < j <= |arr|
    requires !TakesArgument(arr[j - 1])
    ensures WellFormedFrom(arr, i) <==>
              (forall k | i <= k < j :: TokenAllowed(arr, i, k)) && WellFormedFrom(arr, j)
  {
    forall k | j <= k < |arr|
      ensures TokenAllowed(arr, i, k) <==> TokenAllowed(arr, j, k)
    {
    }
  }

  /** The parse loop succeeds exactly on the token lists of the grammar. */
  lemma {:induction false} ParseOptionsIff(arr: seq<string>, i: nat, f: Fields)
    requires SplitShaped(arr)
    ensures ParseOptions(arr, i, f).Some? <==> WellFormedFrom(arr, i)
    decreases |arr| - i, 1
  {
    if i >= |arr| {
    } else if arr[i] == "" {
      ParseOptionsIff(arr, i + 1, f);
      WellFormedShift(arr, i, i + 1);
    } else {
      var option := arr[i];
      if |option| != 2 || option[0] != '-' {
        assert !TokenAllowed(arr, i, i);
      } else {
        var hasArgument := i + 1 < |arr| && arr[i + 1][0] != '-';
        assert hasArgument <==> i + 1 < |arr| && IsArgument(arr[i + 1]);
        if !IsKnownOption(option) {
          assert option[1] != 'h' && option[1] != 'p' && option[1] != 't' && option[1] != 'z' by {
            assert option == ['-', option[1]];
          }
          assert !TokenAllowed(arr, i, i);
        } else if option == "-z" {
          if hasArgument {
            assert !TokenAllowed(arr, i, i + 1);
          } else {
            ParseOptionsIff(arr, i + 1, f.(compress := true));
            WellFormedShift(arr, i, i + 1);
          }
        } else if !hasArgument {
          assert !TokenAllowed(arr, i, i);
        } else if TakesNumber(option) && ParseInt(arr[i + 1]).None? {
          assert !TokenAllowed(arr, i, i);
        } else {
          ArgumentOptionIff(arr, i, f);
        }
      }
    }
  }

  /** The case of ParseOptionsIff where token i is -h, -p or -t with an
      acceptable argument: both sides move on to token i + 2. */
  lemma {:induction false} ArgumentOptionIff(arr: seq<string>, i: nat, f: Fields)
    requires SplitShaped(arr)
    requires i + 1 < |arr| && TakesArgument(arr[i]) && IsArgument(arr[i + 1])
    requires TakesNumber(arr[i]) ==> ParseInt(arr[i + 1]).Some?
    ensures ParseOptions(arr, i, f).Some? <==> WellFormedFrom(arr, i)
    decreases |arr| - i, 0
  {
    var option := arr[i];
    var f' := if option == "-h" then f.(host := Some(arr[i + 1]))
              else if option == "-p" then f.(port := ParseInt(arr[i + 1]).value)
              else f.(timeout := ParseInt(arr[i + 1]).value);
    ParseArgumentStep(arr, i, f);
    assert ParseOptions(arr, i, f) == ParseOptions(arr, i + 2, f');
    ParseOptionsIff(arr, i + 2, f');
    assert TokenAllowed(arr, i, i) && TokenAllowed(arr, i, i + 1);
    WellFormedShift(arr, i, i + 2);
  }

  /** Blank tokens alone leave the fields unchanged. */
  lemma {:induction false} BlankTokensChangeNothing(arr: seq<string>, i: nat, f: Fields)
    requires SplitShaped(arr)
    requires forall k | i <= k < |arr| :: arr[k] == ""
    ensures ParseOptions(arr, i, f) == Some(f)
    decreases |arr| - i
  {
    if i < |arr| {
      BlankTokensChangeNothing(arr, i + 1, f);
    }
  }

  /** One step of the loop, seen from outside: after a successful parse the
      token at position i and, if it takes one, its argument are consumed,
      and the rest of the list is parsed from the returned position. */
  lemma ParseStep(arr: seq<string>, i: nat, f: Fields, g: Fields)
    requires SplitShaped(arr)
    requires i < |arr|
    requires ParseOptions(arr, i, f) == Some(g)
    ensures arr[i] == "" ==> ParseOptions(arr, i + 1, f) == Some(g)
    ensures arr[i] == "-h" ==> i + 1 < |arr| && IsArgument(arr[i + 1])
                               && ParseOptions(arr, i + 2, f.(host := Some(arr[i + 1]))) == Some(g)
    ensures arr[i] == "-p" ==> i + 1 < |arr| && IsArgument(arr[i + 1]) && ParseInt(arr[i + 1]).Some?
                               && ParseOptions(arr, i + 2, f.(port := ParseInt(arr[i + 1]).value)) == Some(g)
    ensures arr[i] == "-t" ==> i + 1 < |arr| && IsArgument(arr[i + 1]) && ParseInt(arr[i + 1]).Some?
                               && ParseOptions(arr, i + 2, f.(timeout := ParseInt(arr[i + 1]).value)) == Some(g)
    ensures arr[i] == "-z" ==> ParseOptions(arr, i + 1, f.(compress := true)) == Some(g)
    ensures arr[i] == "" || arr[i] == "-h" || arr[i] == "-p" || arr[i] == "-t" || arr[i] == "-z"
  {
    var option := arr[i];
    if option != "" {
      assert |option| == 2 && option[0] == '-';
      assert option == ['-', option[1]];
    }
  }

  /** Compression is on after the parse exactly when it was on before or
      some token from i on is -z. */
  lemma {:induction false} ParseOptionsCompress(arr: seq<string>, i: nat, f: Fields, g: Fields)
    requires SplitShaped(arr)
    requires ParseOptions(arr, i, f) == Some(g)
    ensures g.compress <==> f.compress || exists k | i <= k < |arr| :: arr[k] == "-z"
    decreases |arr| - i
  {
    if i < |arr| {
      ParseStep(arr, i, f, g);
      var option := arr[i];
      if option == "" {
        ParseOptionsCompress(arr, i + 1, f, g);
      } else if option == "-z" {
        ParseOptionsCompress(arr, i + 1, f.(compress := true), g);
      } else if option == "-h" {
        ParseOptionsCompress(arr, i + 2, f.(host := Some(arr[i + 1])), g);
      } else if option == "-p" {
        ParseOptionsCompress(arr, i + 2, f.(port := ParseInt(arr[i + 1]).value), g);
      } else {
        ParseOptionsCompress(arr, i + 2, f.(timeout := ParseInt(arr[i + 1]).value), g);
      }
    }
  }

  /** The host after the parse is the argument of the last -h from i on,
      or the host before it when there is no -h. */
  lemma {:induction false} ParseOptionsHost(arr: seq<string>, i: nat, f: Fields, g: Fields)
    requires SplitShaped(arr)
    requires ParseOptions(arr, i, f) == Some(g)
    ensures (forall k | i <= k < |arr| :: arr[k] != "-h") ==> g.host == f.host
    ensures forall k | i <= k && LastOccurrence(arr, "-h", k) :: k + 1 < |arr| && g.host == Some(arr[k + 1])
    decreases |arr| - i
  {
    if i < |arr| {
      ParseStep(arr, i, f, g);
      var option := arr[i];
      if option == "" {
        ParseOptionsHost(arr, i + 1, f, g);
      } else if option == "-z" {
        ParseOptionsHost(arr, i + 1, f.(compress := true), g);
      } else if option == "-h" {
        ParseOptionsHost(arr, i + 2, f.(host := Some(arr[i + 1])), g);
        forall k | i <= k && LastOccurrence(arr, "-h", k)
          ensures k + 1 < |arr| && g.host == Some(arr[k + 1])
        {
          if k < i + 2 {
            assert k == i;
            assert forall m | i + 2 <= m < |arr| :: arr[m] != "-h";
          }
        }
      } else if option == "-p" {
        ParseOptionsHost(arr, i + 2, f.(port := ParseInt(arr[i + 1]).value), g);
      } else {
        ParseOptionsHost(arr, i + 2, f.(timeout := ParseInt(arr[i + 1]).value), g);
      }
    }
  }

  /** The port after the parse is the value of the argument of the last -p
      from i on, or the port before it when there is no -p. */
  lemma {:induction false} ParseOptionsPort(arr: seq<string>, i: nat, f: Fields, g: Fields)
    requires SplitShaped(arr)
    requires ParseOptions(arr, i, f) == Some(g)
    ensures (forall k | i <= k < |arr| :: arr[k] != "-p") ==> g.port == f.port
    ensures forall k | i <= k && LastOccurrence(arr, "-p", k) :: k + 1 < |arr| && ParseInt(arr[k + 1]) == Some(g.port)
    decreases |arr| - i
  {
    if i < |arr| {
      ParseStep(arr, i, f, g);
      var option := arr[i];
      if option == "" {
        ParseOptionsPort(arr, i + 1, f, g);
      } else if option == "-z" {
        ParseOptionsPort(arr, i + 1, f.(compress := true), g);
      } else if option == "-h" {
        ParseOptionsPort(arr, i + 2, f.(host := Some(arr[i + 1])), g);
      } else if option == "-p" {
        ParseOptionsPort(arr, i + 2, f.(port := ParseInt(arr[i + 1]).value), g);
        forall k | i <= k && LastOccurrence(arr, "-p", k)
          ensures k + 1 < |arr| && ParseInt(arr[k + 1]) == Some(g.port)
        {
          if k < i + 2 {
            assert k == i;
            assert forall m | i + 2 <= m < |arr| :: arr[m] != "-p";
          }
        }
      } else {
        ParseOptionsPort(arr, i + 2, f.(timeout := ParseInt(arr[i + 1]).value), g);
      }
    }
  }

  /** The timeout after the parse is the value of the argument of the last
      -t from i on, or the timeout before it when there is no -t. */
  lemma {:induction false} ParseOptionsTimeout(arr: seq<string>, i: nat, f: Fields, g: Fields)
    requires SplitShaped(arr)
    requires ParseOptions(arr, i, f) == Some(g)
    ensures (forall k | i <= k < |arr| :: arr[k] != "-t") ==> g.timeout == f.timeout
    ensures forall k | i <= k && LastOccurrence(arr, "-t", k) :: k + 1 < |arr| && ParseInt(arr[k + 1]) == Some(g.timeout)
    decreases |arr| - i
  {
    if i < |arr| {
      ParseStep(arr, i, f, g);
      var option := arr[i];
      if option == "" {
        ParseOptionsTimeout(arr, i + 1, f, g);
      } else if option == "-z" {
        ParseOptionsTimeout(arr, i + 1, f.(compress := true), g);
      } else if option == "-h" {
        ParseOptionsTimeout(arr, i + 2, f.(host := Some(arr[i + 1])), g);
      } else if option == "-p" {
        ParseOptionsTimeout(arr, i + 2, f.(port := ParseInt(arr[i + 1]).value), g);
      } else {
        ParseOptionsTimeout(arr, i + 2, f.(timeout := ParseInt(arr[i + 1]).value), g);
        forall k | i <= k && LastOccurrence(arr, "-t", k)
          ensures k + 1 < |arr| && ParseInt(arr[k + 1]) == Some(g.timeout)
        {
          if k < i + 2 {
            assert k == i;
            assert forall m | i + 2 <= m < |arr| :: arr[m] != "-t";
          }
        }
      }
    }
  }

  // ---------------------------------------------------------------------
  // What a parse accepts and what it yields

  /** A parse succeeds exactly when the tokens of the text follow the
      grammar. */
  lemma ParseSucceedsExactly(ctx: SslContext, str: string, defaultHost: string)
    ensures Parse(ctx, str, defaultHost).Success? <==> WellFormedFrom(Split(str), 0)
  {
    ParseOptionsIff(Split(str), 0, Defaults);
  }

  /** A successful parse sets each field from the last option that names
      it, and otherwise keeps the default: host from the argument of the
      last -h (defaultHost without one), port and timeout from the value of
      the argument of the last -p and -t (0 and -1 without one), and
      compression on exactly when some token is -z. */
  lemma ParseSuccessFields(ctx: SslContext, str: string, defaultHost: string, e: Endpoint)
    requires Parse(ctx, str, defaultHost) == Success(e)
    ensures var arr := Split(str);
      && e.ctx == ctx
      && (e.compress <==> "-z" in arr)
      && ("-h" !in arr ==> e.host == defaultHost)
      && (forall k | LastOccurrence(arr, "-h", k) :: k + 1 < |arr| && e.host == arr[k + 1])
      && ("-p" !in arr ==> e.port == 0)
      && (forall k | LastOccurrence(arr, "-p", k) :: k + 1 < |arr| && ParseInt(arr[k + 1]) == Some(e.port))
      && ("-t" !in arr ==> e.timeout == -1)
      && (forall k | LastOccurrence(arr, "-t", k) :: k + 1 < |arr| && ParseInt(arr[k + 1]) == Some(e.timeout))
  {
    var arr := Split(str);
    var g := ParseOptions(arr, 0, Defaults).value;
    ParseOptionsCompress(arr, 0, Defaults, g);
    ParseOptionsHost(arr, 0, Defaults, g);
    ParseOptionsPort(arr, 0, Defaults, g);
    ParseOptionsTimeout(arr, 0, Defaults, g);
    forall k | LastOccurrence(arr, "-h", k) ensures g.host.Some? {}
  }

  /** A token that starts with '-' but is not -h, -p, -t or -z (a wrong
      length or an unknown letter) makes the parse fail. */
  lemma UnknownOptionRejected(ctx: SslContext, str: string, defaultHost: string, k: nat)
    requires k < |Split(str)|
    requires LooksLikeOption(Split(str)[k]) && !IsKnownOption(Split(str)[k])
    ensures Parse(ctx, str, defaultHost) == Failure(EndpointParseException("ssl " + str))
  {
    ParseSucceedsExactly(ctx, str, defaultHost);
    assert !TokenAllowed(Split(str), 0, k);
  }

  /** A token not starting with '-' that is not the argument of a directly
      preceding -h, -p or -t (so one standing where an option belongs, or
      one given to -z) makes the parse fail. */
  lemma StrayArgumentRejected(ctx: SslContext, str: string, defaultHost: string, k: nat)
    requires k < |Split(str)|
    requires IsArgument(Split(str)[k])
    requires k == 0 || !TakesArgument(Split(str)[k - 1])
    ensures Parse(ctx, str, defaultHost) == Failure(EndpointParseException("ssl " + str))
  {
    ParseSucceedsExactly(ctx, str, defaultHost);
    assert !TokenAllowed(Split(str), 0, k);
  }

  /** -z followed by an argument makes the parse fail. */
  lemma CompressArgumentRejected(ctx: SslContext, str: string, defaultHost: string, k: nat)
    requires k + 1 < |Split(str)|
    requires Split(str)[k] == "-z" && IsArgument(Split(str)[k + 1])
    ensures Parse(ctx, str, defaultHost) == Failure(EndpointParseException("ssl " + str))
  {
    StrayArgumentRejected(ctx, str, defaultHost, k + 1);
  }

  /** -h, -p or -t that is last, or followed by a token starting with '-',
      makes the parse fail. */
  lemma MissingArgumentRejected(ctx: SslContext, str: string, defaultHost: string, k: nat)
    requires k < |Split(str)|
    requires TakesArgument(Split(str)[k])
    requires k + 1 == |Split(str)| || !IsArgument(Split(str)[k + 1])
    ensures Parse(ctx, str, defaultHost) == Failure(EndpointParseException("ssl " + str))
  {
    ParseSucceedsExactly(ctx, str, defaultHost);
    assert !TokenAllowed(Split(str), 0, k);
  }

  /** An argument of -p or -t that Integer.parseInt rejects makes the parse
      fail. */
  lemma BadNumberRejected(ctx: SslContext, str: string, defaultHost: string, k: nat)
    requires k + 1 < |Split(str)|
    requires TakesNumber(Split(str)[k]) && ParseInt(Split(str)[k + 1]).None?
    ensures Parse(ctx, str, defaultHost) == Failure(EndpointParseException("ssl " + str))
  {
    ParseSucceedsExactly(ctx, str, defaultHost);
    assert !TokenAllowed(Split(str), 0, k);
  }

  // ---------------------------------------------------------------------
  // Rendering

  /** toString: "ssl -h <host> -p <port>", then " -t <timeout>" unless the
      timeout is -1, then " -z" when compression is on. The text always
      starts with the keyword and the host option, and it ends in " -z"
      exactly when compression is on; otherwise it ends in the digits of
      the port or the timeout. */
  function ToString(e: Endpoint): (s: string)
    ensures |s| > 7 && s[..7] == "ssl -h "
    ensures e.compress <==> |s| >= 3 && s[|s| - 3..] == " -z"
    ensures !e.compress ==> IsDigit(s[|s| - 1])
  {
    var numbers := "ssl -h " + e.host + " -p " + IntToString(e.port)
                   + (if e.timeout != -1 then " -t " + IntToString(e.timeout) else "");
    assert IsDigit(numbers[|numbers| - 1]);
    if e.compress then
      var s := numbers + " -z";
      assert s[|s| - 3..] == " -z";
      s
    else
      assert |numbers| >= 3 ==> numbers[|numbers| - 3..][2] == numbers[|numbers| - 1];
      numbers
  }

  /** The tokens of the rendering after its "ssl" keyword. */
  function RenderedTokens(e: Endpoint): seq<string> {
    ["-h", e.host, "-p", IntToString(e.port)] + TimeoutTokens(e) + CompressTokens(e)
  }

  function TimeoutTokens(e: Endpoint): seq<string> {
    if e.timeout != -1 then ["-t", IntToString(e.timeout)] else []
  }

  function CompressTokens(e: Endpoint): seq<string> {
    if e.compress then ["-z"] else []
  }

  function TimeoutSuffix(e: Endpoint): string {
    if e.timeout != -1 then " -t " + IntToString(e.timeout) else ""
  }

  function CompressSuffix(e: Endpoint): string {
    if e.compress then " -z" else ""
  }

  /** The endpoints toString renders so that they parse back: a host that
      is one token not starting with '-', a non-negative port, and a
      timeout that is -1 or non-negative. */
  predicate Renderable(e: Endpoint) {
    IsWord(e.host) && IsArgument(e.host) && e.port >= 0 && e.timeout >= -1
  }

  lemma IntToStringIsWord(n: int)
    ensures IsWord(IntToString(n))
  {
    var s := IntToString(n);
    forall i | 0 <= i < |s| ensures !IsSpace(s[i]) {
      if n < 0 && i > 0 {
        assert s[i] == s[1..][i - 1];
      }
    }
  }

  lemma JoinOfBase(host: string, port: string)
    ensures Join(["-h", host, "-p", port]) == "-h " + host + " -p " + port
  {
    assert Join(["-h"]) == "-h";
    JoinSnoc(["-h"], host);
    assert ["-h"] + [host] == ["-h", host];
    JoinSnoc(["-h", host], "-p");
    assert ["-h", host] + ["-p"] == ["-h", host, "-p"];
    JoinSnoc(["-h", host, "-p"], port);
    assert ["-h", host, "-p"] + [port] == ["-h", host, "-p", port];
  }

  lemma JoinOfPair(ws: seq<string>, a: string, b: string)
    requires |ws| > 0
    ensures Join(ws + [a, b]) == Join(ws) + " " + a + " " + b
  {
    JoinSnoc(ws, a);
    JoinSnoc(ws + [a], b);
    assert ws + [a] + [b] == ws + [a, b];
  }

  lemma JoinTimeout(ws: seq<string>, e: Endpoint)
    requires |ws| > 0
    ensures Join(ws + TimeoutTokens(e)) == Join(ws) + TimeoutSuffix(e)
  {
    if e.timeout != -1 {
      var t := IntToString(e.timeout);
      JoinOfPair(ws, "-t", t);
      OptionText(Join(ws), t);
    } else {
      assert ws + TimeoutTokens(e) == ws;
    }
  }

  lemma JoinCompress(ws: seq<string>, e: Endpoint)
    requires |ws| > 0
    ensures Join(ws + CompressTokens(e)) == Join(ws) + CompressSuffix(e)
  {
    if e.compress {
      JoinSnoc(ws, "-z");
      FlagText(Join(ws));
    } else {
      assert ws + CompressTokens(e) == ws;
    }
  }

  /** toString is "ssl " followed by the rendered tokens, space-separated. */
  lemma RenderIsJoin(e: Endpoint)
    ensures ToString(e) == "ssl " + Join(RenderedTokens(e))
  {
    var port := IntToString(e.port);
    var base := ["-h", e.host, "-p", port];
    JoinOfBase(e.host, port);
    JoinTimeout(base, e);
    JoinCompress(base + TimeoutTokens(e), e);
    var baseText := "-h " + e.host + " -p " + port;
    assert "ssl -h " + e.host + " -p " + port == "ssl " + baseText by {
      assert "ssl -h " == "ssl " + "-h ";
    }
    ToStringPieces(e);
    PrefixAssoc("ssl ", baseText, TimeoutSuffix(e), CompressSuffix(e));
    assert RenderedTokens(e) == base + TimeoutTokens(e) + CompressTokens(e);
  }

  lemma ToStringPieces(e: Endpoint)
    ensures ToString(e) == "ssl -h " + e.host + " -p " + IntToString(e.port) + TimeoutSuffix(e) + CompressSuffix(e)
  {
  }

  lemma RenderedTokensAreWords(e: Endpoint)
    requires IsWord(e.host)
    ensures forall k | 0 <= k < |RenderedTokens(e)| :: IsWord(RenderedTokens(e)[k])
  {
    IntToStringIsWord(e.port);
    IntToStringIsWord(e.timeout);
  }

  /** Splitting toString after its "ssl " keyword yields the rendered
      tokens, when the host is one token. */
  lemma SplitOfRendering(e: Endpoint)
    requires IsWord(e.host)
    ensures |ToString(e)| >= 4 && ToString(e)[..4] == "ssl "
    ensures Split(ToString(e)[4..]) == RenderedTokens(e)
  {
    RenderIsJoin(e);
    var arr := RenderedTokens(e);
    assert ToString(e)[4..] == Join(arr);
    RenderedTokensAreWords(e);
    SplitOfJoin(arr);
  }

  /** One loop iteration over an option that takes an argument. */
  lemma ParseArgumentStep(arr: seq<string>, i: nat, f: Fields)
    requires SplitShaped(arr)
    requires i + 1 < |arr| && TakesArgument(arr[i]) && IsArgument(arr[i + 1])
    requires TakesNumber(arr[i]) ==> ParseInt(arr[i + 1]).Some?
    ensures arr[i] == "-h" ==> ParseOptions(arr, i, f) == ParseOptions(arr, i + 2, f.(host := Some(arr[i + 1])))
    ensures arr[i] == "-p" ==> ParseOptions(arr, i, f) == ParseOptions(arr, i + 2, f.(port := ParseInt(arr[i + 1]).value))
    ensures arr[i] == "-t" ==> ParseOptions(arr, i, f) == ParseOptions(arr, i + 2, f.(timeout := ParseInt(arr[i + 1]).value))
  {
  }

  /** The parse loop reads the rendered tokens of a renderable endpoint
      back into its four fields. */
  lemma RenderedTokensParse(e: Endpoint)
    requires Renderable(e)
    ensures ParseOptions(RenderedTokens(e), 0, Defaults) == Some(Fields(Some(e.host), e.port, e.timeout, e.compress))
  {
    var arr := RenderedTokens(e);
    RenderedTokensAreWords(e);
    ParseIntOfToString(e.port);
    var f2 := Defaults.(host := Some(e.host));
    ParseArgumentStep(arr, 0, Defaults);
    ParseArgumentStep(arr, 2, f2);
    OptionalTokensParse(arr, f2.(port := e.port), e);
  }

  /** The loop reads the optional -t and -z tokens that follow the four
      leading tokens of a rendering into the timeout and compress fields. */
  lemma OptionalTokensParse(arr: seq<string>, f: Fields, e: Endpoint)
    requires SplitShaped(arr) && Renderable(e)
    requires |arr| >= 4 && arr[4..] == TimeoutTokens(e) + CompressTokens(e)
    requires f.timeout == -1 && !f.compress
    ensures ParseOptions(arr, 4, f) == Some(f.(timeout := e.timeout, compress := e.compress))
  {
    if e.timeout != -1 {
      ParseIntOfToString(e.timeout);
      assert arr[4] == "-t" && arr[5] == IntToString(e.timeout);
      ParseArgumentStep(arr, 4, f);
      var f6 := f.(timeout := e.timeout);
      if e.compress {
        assert |arr| == 7 && arr[6] == "-z";
        assert ParseOptions(arr, 6, f6) == ParseOptions(arr, 7, f6.(compress := true));
      } else {
        assert |arr| == 6;
      }
    } else {
      if e.compress {
        assert |arr| == 5 && arr[4] == "-z";
        assert ParseOptions(arr, 4, f) == ParseOptions(arr, 5, f.(compress := true));
      } else {
        assert |arr| == 4;
      }
    }
  }

  /** Text round trip: parsing what toString renders, after its "ssl "
      keyword, gives back the endpoint (with the parsing side's SSL
      context), for every renderable endpoint and any default host. */
  lemma RenderParseRoundTrip(e: Endpoint, ctx: SslContext, defaultHost: string)
    requires Renderable(e)
    ensures |ToString(e)| >= 4 && ToString(e)[..4] == "ssl "
    ensures Parse(ctx, ToString(e)[4..], defaultHost) == Success(e.(ctx := ctx))
  {
    SplitOfRendering(e);
    RenderedTokensParse(e);
  }

  /** A timeout below -1 renders as "-t -5" and the like, whose argument
      starts with '-': the rendering of such an endpoint never parses. */
  lemma NegativeTimeoutNotReparsed(e: Endpoint, ctx: SslContext, defaultHost: string)
    requires IsWord(e.host)
    requires e.timeout < -1
    ensures Parse(ctx, ToString(e)[4..], defaultHost).Failure?
  {
    SplitOfRendering(e);
    MissingArgumentRejected(ctx, ToString(e)[4..], defaultHost, 4);
  }

  /** A negative port renders as "-p -5" and the like: the rendering of
      such an endpoint never parses either. */
  lemma NegativePortNotReparsed(e: Endpoint, ctx: SslContext, defaultHost: string)
    requires IsWord(e.host)
    requires e.port < 0
    ensures Parse(ctx, ToString(e)[4..], defaultHost).Failure?
  {
    SplitOfRendering(e);
    MissingArgumentRejected(ctx, ToString(e)[4..], defaultHost, 2);
  }

  /** The fields a parse sets are renderable ones: a host from an argument
      token, and a port and timeout from arguments that do not start with
      '-', hence non-negative. */
  predicate RenderableFields(f: Fields) {
    && (f.host.Some? ==> IsWord(f.host.value) && IsArgument(f.host.value))
    && f.port >= 0
    && f.timeout >= -1
  }

  lemma {:induction false} ParseOptionsRenderable(arr: seq<string>, i: nat, f: Fields, g: Fields)
    requires SplitShaped(arr)
    requires RenderableFields(f)
    requires ParseOptions(arr, i, f) == Some(g)
    ensures RenderableFields(g)
    decreases |arr| - i
  {
    if i < |arr| {
      ParseStep(arr, i, f, g);
      var option := arr[i];
      if option == "" {
        ParseOptionsRenderable(arr, i + 1, f, g);
      } else if option == "-z" {
        ParseOptionsRenderable(arr, i + 1, f.(compress := true), g);
      } else if option == "-h" {
        ParseOptionsRenderable(arr, i + 2, f.(host := Some(arr[i + 1])), g);
      } else if option == "-p" {
        ParseOptionsRenderable(arr, i + 2, f.(port := ParseInt(arr[i + 1]).value), g);
      } else {
        ParseOptionsRenderable(arr, i + 2, f.(timeout := ParseInt(arr[i + 1]).value), g);
      }
    }
  }

  /** Parse, render, parse: whatever a parse yields renders to text that
      parses back to the same endpoint, as long as the default host is
      itself a renderable host. */
  lemma ParseRenderParse(ctx: SslContext, str: string, defaultHost: string, e: Endpoint, otherDefault: string)
    requires IsWord(defaultHost) && IsArgument(defaultHost)
    requires Parse(ctx, str, defaultHost) == Success(e)
    ensures Parse(ctx, ToString(e)[4..], otherDefault) == Success(e)
  {
    var g := ParseOptions(Split(str), 0, Defaults).value;
    ParseOptionsRenderable(Split(str), 0, Defaults, g);
    RenderParseRoundTrip(e, ctx, otherDefault);
  }

  // ---------------------------------------------------------------------
  // Examples

  lemma ExampleNumerals()
    ensures IntToString(4433) == "4433" && IntToString(3000) == "3000"
  {
    assert NatToString(4) == "4";
    assert NatToString(44) == "44";
    assert NatToString(443) == "443";
    assert NatToString(3) == "3";
    assert NatToString(30) == "30";
    assert NatToString(300) == "300";
  }

  lemma ExampleRendering(ctx: SslContext)
    ensures ToString(Endpoint(ctx, "example.com", 4433, 3000, true))
              == "ssl " + "-h " + "example.com" + " -p " + "4433" + " -t " + "3000" + " -z"
  {
    ExampleNumerals();
  }

  lemma ExampleText(ctx: SslContext)
    ensures ToString(Endpoint(ctx, "example.com", 4433, 3000, true)) == "ssl " + "-h example.com -p 4433 -t 3000 -z"
  {
    ExampleRendering(ctx);
    ExampleLiteral();
    RegroupAfterFirst("ssl ", "-h ", "example.com", " -p ", "4433", " -t ", "3000", " -z");
  }

  lemma ExampleTextTail(ctx: SslContext)
    ensures ToString(Endpoint(ctx, "example.com", 4433, 3000, true))[4..] == "-h example.com -p 4433 -t 3000 -z"
  {
    ExampleText(ctx);
    DropKeyword("-h example.com -p 4433 -t 3000 -z");
  }

  /** "-h example.com -p 4433 -t 3000 -z" parses to host example.com, port
      4433, timeout 3000 and compression, and renders back the same text
      behind "ssl ". */
  lemma EndToEndExample(ctx: SslContext)
    ensures Parse(ctx, "-h example.com -p 4433 -t 3000 -z", "localhost")
              == Success(Endpoint(ctx, "example.com", 4433, 3000, true))
    ensures ToString(Endpoint(ctx, "example.com", 4433, 3000, true)) == "ssl -h example.com -p 4433 -t 3000 -z"
  {
    var e := Endpoint(ctx, "example.com", 4433, 3000, true);
    ExampleText(ctx);
    ExampleKeyword();
    ExampleTextTail(ctx);
    ExampleHost();
    ParseOfRenderedText(e, ctx, "localhost", "-h example.com -p 4433 -t 3000 -z");
  }

  lemma ExampleHost()
    ensures IsWord("example.com") && IsArgument("example.com")
  {
    assert "example.com"[0] == 'e';
  }

  lemma ParseOfRenderedText(e: Endpoint, ctx: SslContext, defaultHost: string, text: string)
    requires Renderable(e) && e.ctx == ctx
    requires ToString(e)[4..] == text
    ensures Parse(ctx, text, defaultHost) == Success(e)
  {
    RenderParseRoundTrip(e, ctx, defaultHost);
  }

  /** The failing inputs "-x" (unknown option) and "-h" (missing
      argument). */
  lemma FailureExamplesOneToken(ctx: SslContext, defaultHost: string)
    ensures Parse(ctx, "-x", defaultHost).Failure?
    ensures Parse(ctx, "-h", defaultHost).Failure?
  {
    SplitOfJoin(["-x"]);
    UnknownOptionRejected(ctx, "-x", defaultHost, 0);
    SplitOfJoin(["-h"]);
    MissingArgumentRejected(ctx, "-h", defaultHost, 0);
  }

  /** The failing inputs "-p abc" (not a number) and "-z foo" (argument to
      -z). */
  lemma FailureExampleBadNumber(ctx: SslContext, defaultHost: string)
    ensures Parse(ctx, "-p abc", defaultHost).Failure?
  {
    SplitOfJoin(["-p", "abc"]);
    assert Join(["-p", "abc"]) == "-p abc";
    BadNumberRejected(ctx, "-p abc", defaultHost, 0);
  }

  lemma FailureExampleCompressArgument(ctx: SslContext, defaultHost: string)
    ensures Parse(ctx, "-z foo", defaultHost).Failure?
  {
    SplitOfJoin(["-z", "foo"]);
    assert Join(["-z", "foo"]) == "-z foo";
    CompressArgumentRejected(ctx, "-z foo", defaultHost, 0);
  }

  // ---------------------------------------------------------------------
  // String identities
  //
  // Concatenation facts that the rendering and example proofs use. Each is
  // stated once here so the solver does not regroup string literals inside
  // the larger proofs.

  /** " " then "-z" is the " -z" suffix of toString. */
  lemma FlagText(w: string)
    ensures w + " " + "-z" == w + " -z"
  {
    assert " " + "-z" == " -z";
  }

  /** " " "-t" " " t is the " -t " + t suffix of toString. */
  lemma OptionText(w: string, t: string)
    ensures w + " " + "-t" + " " + t == w + (" -t " + t)
  {
    assert " " + "-t" + " " == " -t ";
  }

  /** The "ssl " keyword can be split off a four-piece concatenation. */
  lemma PrefixAssoc(k: string, b: string, t: string, c: string)
    ensures (k + b) + t + c == k + (b + t + c)
  {
  }

  /** Dropping the four characters of "ssl " leaves the option text. */
  lemma DropKeyword(text: string)
    ensures ("ssl " + text)[4..] == text
  {
  }

  /** An eight-piece concatenation regroups after its first piece; the
      example splits its rendering into "ssl " and the option text so. */
  lemma RegroupAfterFirst(a: string, b: string, c: string, d: string, e: string, f: string, g: string, h: string)
    ensures a + b + c + d + e + f + g + h == a + (b + c + d + e + f + g + h)
  {
  }

  /** The pieces of the example rendering spell out its option text. */
  lemma ExampleLiteral()
    ensures "-h " + "example.com" + " -p " + "4433" + " -t " + "3000" + " -z" == "-h example.com -p 4433 -t 3000 -z"
  {
  }

  /** "ssl " and the example option text spell out its full rendering. */
  lemma ExampleKeyword()
    ensures "ssl " + "-h example.com -p 4433 -t 3000 -z" == "ssl -h example.com -p 4433 -t 3000 -z"
  {
  }
}

=== FILE: endpoint_wire.dfy ===
/** The wire form of an SSL endpoint: streamWrite and the stream
    constructor. The marshalling stream is modelled as a sequence of typed
    values; an encapsulation is bracketed by start and end markers. */
module EndpointWire {
  import opened Results
  import opened JavaLang
  import opened SslEndpoint

  /** One value on the marshalling stream. */
  datatype Value =
    | ShortValue(s16: int16)
    | IntValue(i32: int32)
    | BoolValue(flag: bool)
    | StringValue(text: string)
    | EncapsStart
    | EncapsEnd

  /** The stream ran short, or held something other than what the reader
      expected (the unmarshalling exceptions of the stream). */
  datatype UnmarshalError = UnmarshalError

  type Reading<T> = Result<(T, seq<Value>), UnmarshalError>

  function StartReadEncaps(s: seq<Value>): Reading<()> {
    if |s| > 0 && s[0] == EncapsStart then Success(((), s[1..])) else Failure(UnmarshalError)
  }

  /** endReadEncaps: the encapsulation must end right where the reader
      stopped. */
  function EndReadEncaps(s: seq<Value>): Reading<()> {
    if |s| > 0 && s[0] == EncapsEnd then Success(((), s[1..])) else Failure(UnmarshalError)
  }

  function ReadString(s: seq<Value>): Reading<string> {
    if |s| > 0 && s[0].StringValue? then Success((s[0].text, s[1..])) else Failure(UnmarshalError)
  }

  function ReadInt(s: seq<Value>): Reading<int32> {
    if |s| > 0 && s[0].IntValue? then Success((s[0].i32, s[1..])) else Failure(UnmarshalError)
  }

  function ReadBool(s: seq<Value>): Reading<bool> {
    if |s| > 0 && s[0].BoolValue? then Success((s[0].flag, s[1..])) else Failure(UnmarshalError)
  }

  /** streamWrite: the type code, then an encapsulation holding host, port,
      timeout and compression, in that order. The SSL context is not
      written. The encapsulation is well bracketed: it opens right after
      the type code, closes at the last value, and holds no marker. */
  function StreamWrite(e: Endpoint): (s: seq<Value>)
    ensures |s| == 7 && s[0] == ShortValue(e.Type())
    ensures s[1] == EncapsStart && s[|s| - 1] == EncapsEnd
    ensures forall k | 2 <= k < |s| - 1 :: s[k] != EncapsStart && s[k] != EncapsEnd
    ensures s[2..6] == [StringValue(e.host), IntValue(e.port), IntValue(e.timeout), BoolValue(e.compress)]
  {
    [ShortValue(TYPE), EncapsStart, StringValue(e.host), IntValue(e.port), IntValue(e.timeout),
     BoolValue(e.compress), EncapsEnd]
  }

  /** The stream constructor SslEndpoint(s, ctx), which reads what follows
      the type code: the encapsulation and its four fields. The context is
      the reading side's own. On success the consumed values are exactly
      what streamWrite emits after the type code for the endpoint read. */
  function StreamRead(ctx: SslContext, s: seq<Value>): (r: Reading<Endpoint>)
    ensures r.Success? ==> r.value.0.ctx == ctx
    ensures r.Success? ==> s == StreamWrite(r.value.0)[1..] + r.value.1
  {
    var (_, s1) :- StartReadEncaps(s);
    var (host, s2) :- ReadString(s1);
    var (port, s3) :- ReadInt(s2);
    var (timeout, s4) :- ReadInt(s3);
    var (compress, s5) :- ReadBool(s4);
    var (_, s6) :- EndReadEncaps(s5);
    Success((Endpoint(ctx, host, port, timeout, compress), s6))
  }

  /** Wire round trip: what streamWrite emits starts with the type code,
      and reading the rest back yields the same host, port, timeout and
      compression (with the reader's SSL context), leaving whatever
      followed on the stream untouched. */
  lemma WireRoundTrip(e: Endpoint, ctx: SslContext, rest: seq<Value>)
    ensures StreamWrite(e)[0] == ShortValue(TYPE)
    ensures StreamRead(ctx, StreamWrite(e)[1..] + rest) == Success((e.(ctx := ctx), rest))
  {
    var s := StreamWrite(e)[1..] + rest;
    assert s[0] == EncapsStart && s[1..][0] == StringValue(e.host);
    assert s[1..][1..] == [IntValue(e.port), IntValue(e.timeout), BoolValue(e.compress), EncapsEnd] + rest;
  }

  /** A stream that stops before the encapsulation is complete does not
      decode. */
  lemma TruncatedStreamRejected(e: Endpoint, ctx: SslContext, n: nat)
    requires 1 <= n < |StreamWrite(e)|
    ensures StreamRead(ctx, StreamWrite(e)[1..n]).Failure?
  {
  }
}

=== FILE: java_lang.dfy ===
/** The parts of java.lang the SSL endpoint relies on: 32-bit `int`
    arithmetic, Integer.toString, Integer.parseInt and String.hashCode. */
module JavaLang {
  import opened Results

  const TWO_32: int := 0x1_0000_0000

  type int8 = x: int | -0x80 <= x < 0x80
  type int16 = x: int | -0x8000 <= x < 0x8000
  type int32 = x: int | -0x8000_0000 <= x < 0x8000_0000

  /** Java `int` wrap-around: the int32 congruent to x modulo 2^32. */
  function Wrap32(x: int): (r: int32)
    ensures (x - r) % TWO_32 == 0
    ensures -0x8000_0000 <= x < 0x8000_0000 ==> r == x
  {
    (x + 0x8000_0000) % TWO_32 - 0x8000_0000
  }

  /** Adding a multiple of 2^32 does not change the wrapped value. */
  lemma WrapShift(x: int, m: int)
    ensures Wrap32(x + TWO_32 * m) == Wrap32(x)
  {
  }

  /** Wrapping an intermediate result of `k * h + y` changes nothing: Java's
      step-by-step wrapped arithmetic equals wrapping once at the end. */
  lemma WrapAbsorbs(k: int, x: int, y: int)
    ensures Wrap32(k * Wrap32(x) + y) == Wrap32(k * x + y)
  {
    var q := (x - Wrap32(x)) / TWO_32;
    assert x - Wrap32(x) == TWO_32 * q;
    assert k * Wrap32(x) + y == k * x + y + TWO_32 * (-k * q);
    WrapShift(k * x + y, -k * q);
  }

  // ---------------------------------------------------------------------
  // Decimal numerals

  predicate IsDigit(c: char) {
    '0' <= c <= '9'
  }

  predicate AllDigits(s: string) {
    forall i :: 0 <= i < |s| ==> IsDigit(s[i])
  }

  function DigitValue(c: char): nat
    requires IsDigit(c)
  {
    c as int - '0' as int
  }

  function DigitChar(d: nat): (c: char)
    requires d < 10
    ensures IsDigit(c) && DigitValue(c) == d
  {
    ('0' as int + d) as char
  }

  /** The value of a decimal numeral, most significant digit first. */
  function DigitsValue(s: string): nat
    requires AllDigits(s)
  {
    if s == [] then 0 else 10 * DigitsValue(s[..|s| - 1]) + DigitValue(s[|s| - 1])
  }

  /** Integer.toString of a non-negative value: the decimal numeral of n,
      without leading zeros, that reads back as n. */
  function NatToString(n: nat): (s: string)
    ensures |s| > 0 && AllDigits(s)
    ensures s[0] != '0' || n == 0
    ensures DigitsValue(s) == n
  {
    if n < 10 then [DigitChar(n)]
    else
      var prefix := NatToString(n / 10);
      var s := prefix + [DigitChar(n % 10)];
      assert s[..|s| - 1] == prefix;
      s
  }

  /** Integer.toString(int): a minus sign precedes the numeral of a
      negative value, and only then. */
  function IntToString(n: int): (s: string)
    ensures |s| > 0
    ensures s[0] == '-' <==> n < 0
    ensures n >= 0 ==> AllDigits(s)
    ensures n < 0 ==> AllDigits(s[1..])
    ensures n >= 0 ==> s[0] != '0' || n == 0
    ensures n < 0 ==> |s| > 1 && s[1] != '0'
    ensures IsDigit(s[|s| - 1])
  {
    if n < 0 then "-" + NatToString(-n) else NatToString(n)
  }

  /** Integer.parseInt(s) as the JDKs of this code's time (1.4 and 5)
      define it on ASCII text: an optional '-' and at least one decimal
      digit, whose value fits in an int, is accepted with that value (leading
      zeros and "-0" included); anything else, a leading '+' included, is a
      NumberFormatException (None). */
  function ParseInt(s: string): (r: Option<int32>)
    ensures r.Some? ==> |s| > 0 && (s[0] == '-' || r.value >= 0)
    ensures r.Some? ==> (s[0] == '-' || IsDigit(s[0]))
    ensures r.Some? && s[0] != '-' ==> AllDigits(s) && DigitsValue(s) == r.value
    ensures r.Some? && s[0] == '-' ==> |s| > 1 && AllDigits(s[1..]) && DigitsValue(s[1..]) == 0 - r.value as int
    ensures |s| > 0 && s[0] != '-' && AllDigits(s) && DigitsValue(s) < 0x8000_0000 ==> r == Some(DigitsValue(s))
    ensures |s| > 1 && s[0] == '-' && AllDigits(s[1..]) && DigitsValue(s[1..]) <= 0x8000_0000 ==> r == Some(0 - DigitsValue(s[1..]))
  {
    if s == [] then None
    else
      var negative := s[0] == '-';
      var digits := if negative then s[1..] else s;
      if digits == [] || !AllDigits(digits) then None
      else
        var magnitude: int := DigitsValue(digits);
        var v: int := if negative then -magnitude else magnitude;
        if -0x8000_0000 <= v < 0x8000_0000 then Some(v) else None
  }

  /** Integer.parseInt reads back every int Integer.toString writes. */
  lemma ParseIntOfToString(n: int32)
    ensures ParseInt(IntToString(n)) == Some(n)
  {
    if n < 0 {
      ParseIntOfNegative(0 - n as int);
    } else {
      ParseIntOfNat(n as int);
    }
  }

  lemma ParseIntOfNat(m: nat)
    requires m < 0x8000_0000
    ensures ParseInt(NatToString(m)) == Some(m)
  {
    var s := NatToString(m);
    assert s[0] != '-';
  }

  lemma ParseIntOfNegative(m: nat)
    requires 0 < m <= 0x8000_0000
    ensures ParseInt("-" + NatToString(m)) == Some(0 - m as int)
  {
    var s := "-" + NatToString(m);
    assert s[1..] == NatToString(m);
  }

  /** A leading '+' is not a sign for these JDKs: "+5" is rejected. */
  lemma PlusSignRejected(s: string)
    ensures ParseInt("+" + s) == None
  {
  }

  // ---------------------------------------------------------------------
  // String.hashCode

  /** The UTF-16 code units Java stores for a string of Unicode scalar
      values: one unit per character of the Basic Multilingual Plane, a
      surrogate pair for every other character. */
  function Utf16(s: string): (units: seq<int>)
    ensures forall i :: 0 <= i < |units| ==> 0 <= units[i] < 0x1_0000
  {
    if s == [] then []
    else
      var c := s[0] as int;
      var head := if c < 0x1_0000 then [c] else [HighSurrogate(s[0]), LowSurrogate(s[0])];
      head + Utf16(s[1..])
  }

  function HashUnits(units: seq<int>, h: int32): int32
  {
    if units == [] then h else HashUnits(units[1..], Wrap32(31 * h + units[0]))
  }

  /** String.hashCode: h := 31 * h + unit over the UTF-16 code units, from
      h = 0, in int arithmetic. The empty string hashes to 0, and
      StringHashStep gives the step for each further character; together
      they determine the hash of every string. */
  function StringHash(s: string): (h: int32)
    ensures s == [] ==> h == 0
  {
    HashUnits(Utf16(s), 0)
  }

  /** Appending a character appends its code units. */
  lemma {:induction false} Utf16Append(s: string, c: char)
    ensures Utf16(s + [c]) == Utf16(s) + Utf16([c])
  {
    if s != [] {
      assert (s + [c])[0] == s[0];
      assert (s + [c])[1..] == s[1..] + [c];
      Utf16Append(s[1..], c);
    }
  }

  /** The code units of one character: itself in the Basic Multilingual
      Plane, a high and a low surrogate otherwise. */
  lemma Utf16OfChar(c: char)
    ensures (c as int) < 0x1_0000 ==> Utf16([c]) == [c as int]
    ensures (c as int) >= 0x1_0000 ==> Utf16([c]) == [HighSurrogate(c), LowSurrogate(c)]
  {
    assert [c][1..] == [];
  }

  function HighSurrogate(c: char): int {
    0xD800 + (c as int - 0x1_0000) / 0x400
  }

  function LowSurrogate(c: char): int {
    0xDC00 + (c as int - 0x1_0000) % 0x400
  }

  /** One more code unit is one more step of the fold. */
  lemma {:induction false} HashUnitsSnoc(units: seq<int>, x: int, h: int32)
    ensures HashUnits(units + [x], h) == Wrap32(31 * HashUnits(units, h) + x)
  {
    if units != [] {
      assert (units + [x])[0] == units[0];
      assert (units + [x])[1..] == units[1..] + [x];
      HashUnitsSnoc(units[1..], x, Wrap32(31 * h + units[0]));
    }
  }

  /** The hash of s + [c] continues the hash of s: one step of
      h := 31 * h + unit for a character of the Basic Multilingual Plane,
      two steps (high, then low surrogate) for any other character. */
  lemma StringHashStep(s: string, c: char)
    ensures (c as int) < 0x1_0000 ==> StringHash(s + [c]) == Wrap32(31 * StringHash(s) + c as int)
    ensures (c as int) >= 0x1_0000 ==>
              StringHash(s + [c]) == Wrap32(31 * Wrap32(31 * StringHash(s) + HighSurrogate(c)) + LowSurrogate(c))
  {
    Utf16Append(s, c);
    Utf16OfChar(c);
    var u := Utf16(s);
    if (c as int) < 0x1_0000 {
      HashUnitsSnoc(u, c as int, 0);
    } else {
      assert u + [HighSurrogate(c), LowSurrogate(c)] == (u + [HighSurrogate(c)]) + [LowSurrogate(c)];
      HashUnitsSnoc(u + [HighSurrogate(c)], LowSurrogate(c), 0);
      HashUnitsSnoc(u, HighSurrogate(c), 0);
    }
  }
}

=== FILE: results.dfy ===
/** Optional values and success-or-error results: the model's stand-ins for
    Java's `null` and for thrown exceptions. `Result` can be used with `:-`. */
module Results {

  datatype Option<+T> = None | Some(value: T)

  datatype Result<+T, +E> = Success(value: T) | Failure(error: E)
  {
    predicate IsFailure() {
      Failure?
    }

    function PropagateFailure<U>(): Result<U, E>
      requires Failure?
    {
      Failure(error)
    }

    function Extract(): T
      requires Success?
    {
      value
    }
  }
}

=== FILE: ssl_endpoint.dfy ===
/** The SSL transport endpoint: an immutable descriptor of where a secure
    stream connection goes (host, port) and how (timeout, compression),
    together with the SSL context it was built with. This module holds the
    value type, its hash code, the derivations that return an endpoint with
    one field changed, and the connector/acceptor/transceiver plumbing. */
module SslEndpoint {
  import opened Results
  import opened JavaLang

  /** The transport-kind code of SSL endpoints (the first value streamWrite
      emits). */
  const TYPE: int16 := 2

  /** Opaque handle to the SSL context (certificates, cipher policy). It is
      carried along but never serialised, compared or hashed. */
  datatype SslContext = SslContext(handle: nat)

  /** An SSL endpoint. A timeout of -1 means no timeout, 0 non-blocking, a
      positive value milliseconds. */
  datatype Endpoint = Endpoint(ctx: SslContext, host: string, port: int32, timeout: int32, compress: bool)
  {
    /** The endpoint type, TYPE. */
    function Type(): int16 {
      TYPE
    }

    /** SSL endpoints are stream-based, never datagram-based. */
    predicate Datagram() {
      false
    }

    predicate Secure() {
      true
    }

    /** SSL is a known endpoint type. */
    predicate Unknown() {
      false
    }
  }

  function CompressBit(c: bool): int {
    if c then 1 else 0
  }

  /** hashCode, as calcHashValue computes it once per construction: the
      host's String.hashCode folded with port, timeout and compression,
      each step h := 5 * h + field in int arithmetic. Wrapping at every
      step loses nothing: the result is the polynomial
      ((hash(host) * 5 + port) * 5 + timeout) * 5 + compress taken once
      modulo 2^32. */
  function HashCode(e: Endpoint): (h: int32)
    ensures h == Wrap32(125 * StringHash(e.host) + 25 * e.port + 5 * e.timeout + CompressBit(e.compress))
  {
    var h0 := StringHash(e.host);
    var h1 := Wrap32(5 * h0 + e.port);
    var h2 := Wrap32(5 * h1 + e.timeout);
    WrapAbsorbs(5, 5 * h0 + e.port, e.timeout);
    WrapAbsorbs(5, 25 * h0 + 5 * e.port + e.timeout, CompressBit(e.compress));
    Wrap32(5 * h2 + CompressBit(e.compress))
  }

  // ---------------------------------------------------------------------
  // Derivations

  /** timeout(int): the same endpoint when t is already its timeout,
      otherwise an endpoint that differs from e in the timeout alone. */
  function WithTimeout(e: Endpoint, t: int32): (r: Endpoint)
    ensures r.timeout == t
    ensures r.(timeout := e.timeout) == e
    ensures r == e <==> t == e.timeout
  {
    if t == e.timeout then e else Endpoint(e.ctx, e.host, e.port, t, e.compress)
  }

  /** compress(boolean): the same endpoint when c is already its
      compression flag, otherwise one that differs in the flag alone. */
  function WithCompress(e: Endpoint, c: bool): (r: Endpoint)
    ensures r.compress == c
    ensures r.(compress := e.compress) == e
    ensures r == e <==> c == e.compress
  {
    if c == e.compress then e else Endpoint(e.ctx, e.host, e.port, e.timeout, c)
  }

  /** Deriving back to the original timeout restores the endpoint. */
  lemma WithTimeoutUndo(e: Endpoint, t: int32)
    ensures WithTimeout(WithTimeout(e, t), e.timeout) == e
  {
  }

  /** Deriving back to the original compression flag restores the endpoint. */
  lemma WithCompressUndo(e: Endpoint, c: bool)
    ensures WithCompress(WithCompress(e, c), e.compress) == e
  {
  }

  // ---------------------------------------------------------------------
  // Connectors, acceptors, transceivers

  /** The SslConnector the endpoint builds: it targets host and port with
      the endpoint's SSL context. */
  datatype Connector = SslConnector(ctx: SslContext, host: string, port: int32)

  /** An acceptor: the SslAcceptor an SSL endpoint builds (listening on
      host and port with the endpoint's context), or one of another
      transport kind. */
  datatype Acceptor = SslAcceptor(ctx: SslContext, host: string, port: int32) | ForeignAcceptor

  /** A live transceiver; SSL endpoints never hand one out directly. */
  datatype Transceiver = Transceiver(handle: nat)

  /** connector(): the connector targets exactly the host and port, with
      the context, that an acceptor of the same endpoint listens on. */
  function MakeConnector(e: Endpoint): (c: Connector)
    ensures forall p: int32 :: MakeAcceptor(e, p).0 == SslAcceptor(c.ctx, c.host, c.port)
  {
    SslConnector(e.ctx, e.host, e.port)
  }

  /** acceptor(holder): the acceptor bound to the endpoint's host and port,
      and the effective endpoint, which carries the port the acceptor
      actually bound (effectivePort, an input here since the binding is
      done by the socket layer). */
  function MakeAcceptor(e: Endpoint, effectivePort: int32): (r: (Acceptor, Endpoint))
    ensures r.0 == SslAcceptor(e.ctx, e.host, e.port)
    ensures r.1.port == effectivePort
    ensures r.1.(port := e.port) == e
    ensures r.1 == e <==> effectivePort == e.port
  {
    (SslAcceptor(e.ctx, e.host, e.port), Endpoint(e.ctx, e.host, effectivePort, e.timeout, e.compress))
  }

  /** clientTransceiver(): none; connections are made through a connector. */
  function ClientTransceiver(e: Endpoint): (t: Option<Transceiver>)
    ensures t.None?
  {
    None
  }

  /** serverTransceiver(holder): no transceiver, and the effective endpoint
      is the endpoint itself. */
  function ServerTransceiver(e: Endpoint): (r: (Option<Transceiver>, Endpoint))
    ensures r.0.None? && r.1 == e
  {
    (None, e)
  }

  /** equivalent(Transceiver): never. */
  function EquivalentTransceiver(e: Endpoint, t: Transceiver): (r: bool)
    ensures !r
  {
    false
  }

  /** equivalent(Acceptor): false for an acceptor of another kind (the
      failed cast); for an SslAcceptor, whatever SslAcceptor.equivalent says
      of the endpoint's host and port (sslEquivalent, not modelled here). */
  function EquivalentAcceptor(e: Endpoint, a: Acceptor, sslEquivalent: (Acceptor, string, int32) -> bool): (r: bool)
    ensures r ==> a.SslAcceptor?
    ensures a.SslAcceptor? ==> (r <==> sslEquivalent(a, e.host, e.port))
  {
    match a
    case ForeignAcceptor => false
    case SslAcceptor(_, _, _) => sslEquivalent(a, e.host, e.port)
  }

  /** The static facts of the SSL kind: type code 2, secure, stream-based
      (not datagram), and a known type. */
  lemma KindFacts(e: Endpoint)
    ensures e.Type() == 2 && e.Secure() && !e.Datagram() && !e.Unknown()
  {
  }
}

=== FILE: tokenizer.dfy ===
/** java.lang.String.split with the separator pattern "[ \t\n\r]+", which is
    how the endpoint parser cuts its input into tokens. */
module Tokenizer {

  predicate IsSpace(c: char) {
    c == ' ' || c == '\t' || c == '\n' || c == '\r'
  }

  /** A non-empty run of non-separator characters. */
  predicate IsWord(w: string) {
    |w| > 0 && forall i :: 0 <= i < |w| ==> !IsSpace(w[i])
  }

  /** Length of the longest separator-free prefix of s. */
  function WordLength(s: string): (n: nat)
    ensures n <= |s|
    ensures forall i :: 0 <= i < n ==> !IsSpace(s[i])
    ensures n < |s| ==> IsSpace(s[n])
  {
    if s == [] || IsSpace(s[0]) then 0 else 1 + WordLength(s[1..])
  }

  /** The maximal separator-free runs of s, in order. */
  function Words(s: string): (ws: seq<string>)
    ensures forall k :: 0 <= k < |ws| ==> IsWord(ws[k])
    decreases |s|
  {
    if s == [] then []
    else if IsSpace(s[0]) then Words(s[1..])
    else
      var n := WordLength(s);
      [s[..n]] + Words(s[n..])
  }

  /** String.split: the fields between separator runs. A leading empty
      field appears when s starts with a separator, trailing empty fields
      are dropped, and a string without separators is its own only field
      (so "" splits into [""] and an all-separator string into []). */
  function Split(s: string): (arr: seq<string>)
    ensures forall k :: 1 <= k < |arr| ==> IsWord(arr[k])
    ensures arr == Words(s) || arr == [""] + Words(s)
  {
    if s == [] then [""]
    else if Words(s) == [] then []
    else if IsSpace(s[0]) then [""] + Words(s)
    else Words(s)
  }

  /** Words separated by single spaces. */
  function Join(ws: seq<string>): string {
    if ws == [] then "" else if |ws| == 1 then ws[0] else ws[0] + " " + Join(ws[1..])
  }

  lemma {:induction false} WordLengthOfWord(w: string, rest: string)
    requires IsWord(w)
    requires rest == [] || IsSpace(rest[0])
    ensures WordLength(w + rest) == |w|
    decreases |w|
  {
    var s := w + rest;
    assert s[0] == w[0];
    if |w| == 1 {
      assert s[1..] == rest;
    } else {
      assert s[1..] == w[1..] + rest;
      WordLengthOfWord(w[1..], rest);
    }
  }

  /** A word followed by a separator (or by nothing) is the first field. */
  lemma WordsOfWordThen(w: string, rest: string)
    requires IsWord(w)
    requires rest == [] || IsSpace(rest[0])
    ensures Words(w + rest) == [w] + Words(rest)
  {
    var s := w + rest;
    WordLengthOfWord(w, rest);
    assert s[..|w|] == w;
    assert s[|w|..] == rest;
  }

  /** Splitting undoes joining: the words of space-joined words are those
      words. */
  lemma {:induction false} WordsOfJoin(ws: seq<string>)
    requires forall k :: 0 <= k < |ws| ==> IsWord(ws[k])
    ensures Words(Join(ws)) == ws
    decreases |ws|
  {
    if ws == [] {
    } else if |ws| == 1 {
      WordsOfWordThen(ws[0], []);
      assert ws[0] + [] == ws[0];
    } else {
      var tail := Join(ws[1..]);
      assert ws[0] + " " + tail == ws[0] + (" " + tail);
      WordsOfWordThen(ws[0], " " + tail);
      assert (" " + tail)[1..] == tail;
      WordsOfJoin(ws[1..]);
    }
  }

  /** String.split of space-joined words returns exactly those words. */
  lemma {:induction false} SplitOfJoin(ws: seq<string>)
    requires |ws| > 0
    requires forall k :: 0 <= k < |ws| ==> IsWord(ws[k])
    ensures Split(Join(ws)) == ws
  {
    WordsOfJoin(ws);
    var s := Join(ws);
    assert s[0] == ws[0][0] by {
      if |ws| > 1 {
        assert s == ws[0] + (" " + Join(ws[1..]));
      }
    }
    assert s != [] && Words(s) != [] && !IsSpace(s[0]);
  }

  /** Joining one more word appends a space and the word. */
  lemma {:induction false} JoinSnoc(ws: seq<string>, w: string)
    requires |ws| > 0
    ensures Join(ws + [w]) == Join(ws) + " " + w
    decreases |ws|
  {
    var ws' := ws + [w];
    if |ws| == 1 {
      assert ws'[1..] == [w];
      assert Join(ws') == ws'[0] + " " + Join([w]);
    } else {
      assert ws'[1..] == ws[1..] + [w];
      JoinSnoc(ws[1..], w);
      calc {
        Join(ws');
        ws[0] + " " + Join(ws[1..] + [w]);
        ws[0] + " " + (Join(ws[1..]) + " " + w);
        (ws[0] + " " + Join(ws[1..])) + " " + w;
      }
    }
  }
}
